=== FILE: README.md ===
# Merge-A-Brainrot economy and progression, in Dafny

A model of the economy and progression core of the Unity merge/clicker game
Merge-A-Brainrot. Pieces ("brainrots") spawn in a first world. The player
drags a piece onto another of the same stage, and the two fuse into one piece
of the next stage. Tapping a piece earns coins, and coins buy pieces in the
stage shop and three upgrades in the upgrade panel. Reaching a high enough
stage unlocks a second world.

Every part of the game state is an immutable record, and every operation is
a pure transition that returns the next state. A guarded operation also
returns whether it took effect. The modules follow the game's classes:

| file | module | models |
|---|---|---|
| `wrappers.dfy` | `Wrappers` | `Option`, for nullable references and missing keys |
| `numeric.dfy` | `Numeric` | the engine's `Mathf` helpers used here: `Max`, `Clamp`, `CeilToInt`, `RoundToInt` (halves to even), `Pow` |
| `fusion.dfy` | `Fusion` | `FusionObject`: pieces, the fusion candidate, the re-entrancy guard, release and deferred destruction |
| `shop_purchases.dfy` | `ShopPurchases` | the per-stage purchase counts of `GameManager` and their save records |
| `game_manager.dfy` | `GameManager` | the ledger, shop purchases, highest stage, visible shop limit, world unlock and routing, auto-spawn, save and load |
| `clickable.dfy` | `Clickable` | `ClickableObject`: the tap reward and the two global upgrade scalars |
| `shop_panel.dfy` | `ShopPanel` | `ShopPanelController`: stage prices, the buy button, the row set and the row refresh |
| `upgrades.dfy` | `Upgrades` | `CanvasMejorasController`: the three upgrade tracks, price labels and the panel's save data |

Modelling choices:

- **Numbers.** Money, multipliers and intervals are `real`, so arithmetic is
  exact where the game uses `float`. Prices and counters are `int`, as in the
  game.
- **Scene.** A map from piece ids to pieces. Unity's `Destroy` only takes
  effect at the end of the frame, so a destroyed piece first moves to a
  `doomed` set. The population is the number of pieces in the map, doomed
  ones included, as the game's object search counts them. A reference to a
  removed piece reads as null (`Fusion.Live`).
- **Environment.** The scene around the manager is a parameter (`GameManager.Env`):
  - whether a piece prefab is assigned;
  - how many stage sprites the prefab carries;
  - which world containers exist.

  Frame time (`dt`) is a parameter too.
- **Missing members.** `ClickableObject.cs` does not define the global coin
  multiplier and auto-click reduction that other classes read and adjust.
  They are two fields of `GameManager.GameState`. Each is changed only by
  adding the argument, with no clamp. `FusionObject.SetStage` and `GetStage`
  are not part of this model either. A spawned piece simply carries the
  requested stage.

Behaviours of the code a reader might not expect, which the model follows:

- The tap reward does not apply the global coin multiplier.
- `ReceiveFusion` leaves the receiving piece's guard as it was.
- Loading a save overwrites the highest stage reached, so a load can lower it.
- The shop price of a stage is `basePrice * priceMultiplier^(stage - 1)` with no purchase-count term.
- Auto-spawn is enabled by default.

## Model

| member | source | states |
|---|---|---|
| Fusion.Live | Assets/Scripts/FusionObject.cs:26-42 | a reference to a piece that is no longer in the scene reads as null, as Unity's null test sees a destroyed object |
| Fusion.UpdateSprite | Assets/Scripts/FusionObject.cs:57-73 | the sprite becomes the table entry for the stage when `0 <= stage - 1 < sprite count`, and is left unchanged otherwise |
| Fusion.Instantiate | Assets/Scripts/GameManager.cs:382-388 | a new piece gets a fresh id, no candidate and a clear guard, in the given container, and carries the requested stage; the population grows by one and no other piece changes |
| Fusion.CollisionStay | Assets/Scripts/FusionObject.cs:22-30 | a contact records the other piece as candidate exactly when it is a live piece at the same stage; any other contact leaves the scene unchanged |
| Fusion.CollisionExit | Assets/Scripts/FusionObject.cs:32-37 | a piece leaving contact clears the candidate only when it is that candidate (references compared as Unity compares them) |
| Fusion.ReceiveFusion | Assets/Scripts/FusionObject.cs:50-55 | the receiver's stage rises by exactly one and its sprite follows the new stage; guard, candidate and container are untouched |
| Fusion.TryFusionOnRelease | Assets/Scripts/FusionObject.cs:39-48 | fuses iff the piece is live, its guard is clear and its candidate is live; then the releaser's guard is set and its other fields are kept, the candidate gains exactly one stage, the releaser is scheduled for destruction and every other piece is unchanged; otherwise nothing changes |
| Fusion.EndOfFrame | Assets/Scripts/FusionObject.cs:47 | at the end of the frame the doomed pieces leave the scene, the population drops by their number and the remaining pieces are unchanged |
| Fusion.FinishFusionAnimation | Assets/Scripts/FusionObject.cs:75-99 | the end of a piece's growth animation clears only that piece's guard; for a doomed or removed piece the scene is returned unchanged |
| Fusion.ReleaseRemovesExactlyOne | Assets/Scripts/FusionObject.cs:39-55 | a committed release followed by the end of the frame removes exactly the released piece, raises its candidate by one stage and keeps every other piece |
| Fusion.GuardBlocksSecondRelease | Assets/Scripts/FusionObject.cs:41-44 | a piece that has just fused cannot fuse a second time before it is destroyed |
| Fusion.CandidateRecordedOnlyAtSameStage | Assets/Scripts/FusionObject.cs:22-30 | whenever a contact changes a piece's candidate, the new candidate is the other piece, live and at the same stage |
| Fusion.StaleCandidateFusesUnequalStages | Assets/Scripts/FusionObject.cs:39-48 | as written, a candidate recorded at stage 3 that has since grown to stage 4 still absorbs a stage-3 piece, reaching stage 5 |
| Fusion.TryFusionOnReleaseSameStage | Assets/Scripts/FusionObject.cs:39-48 | with the stage re-checked on release, a fusion happens only between two pieces of one stage, and the survivor ends one stage above the releaser |
| Fusion.SameStageReleaseRefusesStaleCandidate | Assets/Scripts/FusionObject.cs:39-48 | with the stage re-checked, the stale release of the previous row is refused |
| ShopPurchases.PurchaseCount | Assets/Scripts/GameManager.cs:253-261 | 0 for a stage below 1 or never bought, otherwise the recorded count, never negative for well-formed counts |
| ShopPurchases.RegisterShopPurchase | Assets/Scripts/GameManager.cs:492-507 | a stage below 1 is ignored; otherwise that stage's count rises by exactly one and every other stage's count is unchanged |
| ShopPurchases.Filter | Assets/Scripts/GameManager.cs:514-517 | keeps exactly the entries whose stage and count are both at least 1 |
| ShopPurchases.FilterKeepsValidCounts | Assets/Scripts/GameManager.cs:514-517 | counts whose stages and counts are all at least 1 lose nothing to the filter |
| ShopPurchases.CollectShopPurchases | Assets/Scripts/GameManager.cs:509-527 | the save list holds every kept entry exactly once with its count, and nothing else |
| ShopPurchases.RestoreFrom | Assets/Scripts/GameManager.cs:537-546 | restores only records with stage and count at least 1; every restored stage comes from such a record and every such record's stage is restored |
| ShopPurchases.RestoreLastRecordWins | Assets/Scripts/GameManager.cs:537-546 | a later record for a stage overwrites an earlier one: each stage comes back with the count of the last kept record for it |
| ShopPurchases.RestoreShopPurchases | Assets/Scripts/GameManager.cs:529-547 | a missing list restores no purchases; the result is always well-formed |
| ShopPurchases.RestoreDistinct | Assets/Scripts/GameManager.cs:537-546 | with no stage listed twice, every kept record comes back with its own count |
| ShopPurchases.RestoreOfListing | Assets/Scripts/GameManager.cs:528-546 | a list holding each entry of well-formed counts exactly once restores to those counts |
| ShopPurchases.RestoreOfCollected | Assets/Scripts/GameManager.cs:509-547 | restoring a collected list gives back exactly the kept entries of the counts |
| ShopPurchases.CollectThenRestoreIsIdentity | Assets/Scripts/GameManager.cs:509-547 | well-formed purchase counts survive a save and a load unchanged |
| GameManager.PopulationCountsDoomed | Assets/Scripts/GameManager.cs:646-649 | the piece count includes the pieces destroyed this frame: it is the live pieces plus the doomed ones |
| GameManager.Initial | Assets/Scripts/GameManager.cs:11-43 | a new manager has no money, highest stage 1, auto-spawn on at a 10-second interval, the first world shown and the second locked |
| GameManager.AddMoney | Assets/Scripts/GameManager.cs:263-268 | the balance rises by exactly the amount and nothing else changes |
| GameManager.TrySpendMoney | Assets/Scripts/GameManager.cs:270-278 | a non-positive amount succeeds with the balance unchanged; more than the balance fails with nothing changed; otherwise the balance drops by exactly the amount and stays non-negative |
| GameManager.SpendThenAddRestores | Assets/Scripts/GameManager.cs:263-278 | crediting back a successful positive debit restores the original state |
| GameManager.LedgerStaysNonNegative | Assets/Scripts/GameManager.cs:263-278 | under any sequence of non-negative credits and spends, a non-negative balance stays non-negative |
| GameManager.MaxBrainrotStage | Assets/Scripts/GameManager.cs:197-206 | the number of stage sprites of the prefab, or 1 without a prefab or sprites |
| GameManager.VisibleShopStageLimit | Assets/Scripts/GameManager.cs:208-217 | within [1, maxStage]; 1 while the highest stage is below 10; `highest - 8` from 10 on when that fits; capped at maxStage; never above the highest stage |
| GameManager.GetVisibleShopStageLimit | Assets/Scripts/GameManager.cs:208-217 | the visible limit is exactly `Clamp(highest >= 10 ? highest - 8 : 1, 1, stage count)`: 1 below stage 10, `highest - 8` while that fits, the stage count above it; so it lies between 1 and the stage count and never exceeds the highest stage reached |
| GameManager.VisibleLimitMonotone | Assets/Scripts/GameManager.cs:208-217 | a higher highest stage never gives a smaller visible limit |
| GameManager.TrackHighestStage | Assets/Scripts/GameManager.cs:674-681 | the counter becomes the larger of itself and `max(1, stage)`; the change notification fires iff that is a strict increase; nothing else changes |
| GameManager.TrackAllMonotone | Assets/Scripts/GameManager.cs:674-681 | over any run of stages the counter never decreases, ends at or above every stage seen, and touches nothing else |
| GameManager.UnlockStage | Assets/Scripts/GameManager.cs:795 | the unlock threshold is exactly `Max(1, changeWorldUnlockStage)`: the configured stage when it is at least 1, otherwise 1 |
| GameManager.UnlockChangeWorld | Assets/Scripts/GameManager.cs:783-791 | the world is unlocked afterwards and nothing else changes |
| GameManager.TryUnlockChangeWorldForStage | Assets/Scripts/GameManager.cs:793-803 | returns true iff the stage exceeds the unlock threshold and the world was still locked, and then only unlocks; otherwise nothing changes |
| GameManager.UnlockAtMostOnce | Assets/Scripts/GameManager.cs:793-803 | over any run of stages the unlock succeeds at most once, exactly once iff the world was locked and some stage exceeds the threshold, and the flag never resets |
| GameManager.AutoSwitchToScreen2 | Assets/Scripts/GameManager.cs:805-809 | the second world is shown afterwards and nothing else changes |
| GameManager.TargetContainer | Assets/Scripts/GameManager.cs:395-405 | stage 11 and above goes to the second world and lower stages to the first, each falling back to the other container; none only when neither exists |
| GameManager.SpawnBrainrot | Assets/Scripts/GameManager.cs:360-393 | succeeds iff a prefab is assigned and some container exists; then exactly one piece of the stage is added in its target container |
| GameManager.TryBuyBrainrotFromShop | Assets/Scripts/GameManager.cs:231-251 | the four guards refuse with nothing changed; a failed spawn refunds the debit and counts nothing; a success debits exactly the price, counts exactly one purchase of that stage only, and adds exactly the piece that spawning one of the bought stage yields |
| GameManager.EnableAutoSpawn | Assets/Scripts/GameManager.cs:290-294 | auto-spawn is on with an interval of `Max(1, interval)`: the argument when that is at least one, exactly one second otherwise |
| GameManager.ReduceSpawnInterval | Assets/Scripts/GameManager.cs:296-300 | a non-positive reduction changes nothing; a positive one gives `Max(1, interval - reduction)`: the exact difference when that is at least one, exactly one second otherwise, so strictly shorter when it was above one second |
| GameManager.Tick | Assets/Scripts/GameManager.cs:138-154 | nothing happens without a prefab, with auto-spawn off or with the second world shown; otherwise the timer accumulates, and on reaching the interval it resets to 0; it spawns one stage-1 piece exactly when the population is below the cap and a world container exists |
| GameManager.RunTicks | Assets/Scripts/GameManager.cs:138-154 | any number of frames keeps the manager state well-formed |
| GameManager.TicksRespectCap | Assets/Scripts/GameManager.cs:138-154 | auto-spawn alone never takes the population past the cap and adds at most one piece per frame |
| GameManager.MoveToScreen2 | Assets/Scripts/GameManager.cs:837-841 | the piece is re-parented to the second world when that container exists; otherwise nothing changes |
| GameManager.Reparent | Assets/Scripts/GameManager.cs:325-329 | only the given piece's container changes |
| GameManager.InScreenContainer | Assets/Scripts/GameManager.cs:600-606 | an unparented piece is in no container; a piece under a world container counts as placed exactly when that container exists |
| GameManager.ToggleWorld | Assets/Scripts/GameManager.cs:354-358 | only which world is shown flips |
| GameManager.ToggleWorldTwice | Assets/Scripts/GameManager.cs:354-358 | toggling twice returns to the same world |
| GameManager.OnBrainrotStageChanged | Assets/Scripts/GameManager.cs:334-352 | tracks the stage; unlocks iff the stage exceeds the threshold on a locked world; from stage 11 on moves the piece to the second world (when it exists) and switches the view only on the call that unlocks; below 11 the pieces are untouched; no other piece and no other field changes |
| GameManager.RegisterBrainrot | Assets/Scripts/GameManager.cs:302-332 | tracks the piece's stage and unlocks iff it exceeds the threshold on a locked world; from stage 11 on moves the piece to the second world when it exists; below 11 a piece outside every existing container is parented to its target container; no other piece and no other field changes |
| GameManager.RegisterBrainrotNeverSwitches | Assets/Scripts/GameManager.cs:306-319 | as written, registering a piece never changes which world is shown |
| GameManager.RegisterBrainrotSwitching | Assets/Scripts/GameManager.cs:302-332 | with the unlock tried once, after the move, registering a piece of stage 11 or more that unlocks the world switches the view to it |
| GameManager.RegisterStageTwelveOnLockedWorld | Assets/Scripts/GameManager.cs:306-319 | with the defaults, registering a stage-12 piece on a locked world unlocks it but keeps the first world shown as written, and shows the second with the fix |
| GameManager.StageElevenHiddenOnLockedWorld | Assets/Scripts/GameManager.cs:339-346 | with the defaults, a piece reaching stage 11 on a locked world is moved to the second world while that world stays locked and hidden |
| GameManager.OnBrainrotStageChangedAligned | Assets/Scripts/GameManager.cs:334-352 | with routing aligned to the unlock, a piece is moved to the second world only when that world is unlocked |
| GameManager.AlignedStageElevenStaysVisible | Assets/Scripts/GameManager.cs:339-346 | with routing aligned, the stage-11 piece of the finding stays in the first world |
| GameManager.LoadState | Assets/Scripts/GameManager.cs:434-468 | no save changes nothing; otherwise the saved fields are copied with the highest stage raised to at least 1, the interval to at least one second and the purchases filtered, and the world unlocks iff the loaded stage exceeds the threshold |
| GameManager.SaveState | Assets/Scripts/GameManager.cs:407-420 | the save records every saved field of the manager and each kept purchase count exactly once |
| GameManager.SaveLoadRoundTrip | Assets/Scripts/GameManager.cs:407-468 | loading the save of a well-formed manager restores every saved field exactly, whatever state it is loaded into |
| Clickable.TapReward | Assets/Scripts/ClickableObject.cs:17 | a tap is always worth a positive amount |
| Clickable.TapRewardAtStageOne | Assets/Scripts/ClickableObject.cs:17 | a stage-1 tap is worth 10 |
| Clickable.TapRewardAtLeastTen | Assets/Scripts/ClickableObject.cs:17 | from stage 1 on a tap is worth at least 10 |
| Clickable.TapRewardDoubles | Assets/Scripts/ClickableObject.cs:17 | one stage higher is worth exactly twice as much |
| Clickable.TapRewardIsWholeCoins | Assets/Scripts/ClickableObject.cs:17 | from stage 1 on the reward is exactly `10 * 2^(stage - 1)` whole coins |
| Clickable.OnMouseDown | Assets/Scripts/ClickableObject.cs:14-41 | a piece without a fusion component counts as stage 1; with a manager the reward is credited exactly once and nothing else changes; without one nothing is credited |
| Clickable.TapAllCreditsSum | Assets/Scripts/ClickableObject.cs:14-41 | a run of taps credits exactly the sum of their rewards and changes nothing else |
| Clickable.ApplyGlobalAutoClickUpgrade | Assets/Scripts/CanvasMejorasController.cs:484 | the global auto-click reduction rises by exactly the argument and nothing else changes |
| Clickable.IncreaseGlobalMoneyMultiplier | Assets/Scripts/CanvasMejorasController.cs:560 | the global coin multiplier rises by exactly the argument and nothing else changes |
| ShopPanel.GetStagePrice | Assets/Scripts/ShopPanelController.cs:249-253 | with a non-negative base and a positive multiplier the price is never negative |
| ShopPanel.PriceWithinHalf | Assets/Scripts/ShopPanelController.cs:249-253 | the price of a stage lies within one half of `basePrice * priceMultiplier^(stage - 1)`, the nearest whole number to it |
| ShopPanel.FirstStageCostsBase | Assets/Scripts/ShopPanelController.cs:249-253 | stage 1 costs exactly the base price |
| ShopPanel.PriceWithWholeMultiplier | Assets/Scripts/ShopPanelController.cs:249-253 | with a whole multiplier `k` the price is exactly `basePrice * k^(stage - 1)` |
| ShopPanel.DefaultPrices | Assets/Scripts/ShopPanelController.cs:20-21 | with the defaults stage `s` costs `25 * 2^(s - 1)` |
| ShopPanel.PriceStrictlyIncreasing | Assets/Scripts/ShopPanelController.cs:251 | with a positive base and a whole multiplier of at least 2, a higher stage costs strictly more |
| ShopPanel.TryBuyStage | Assets/Scripts/ShopPanelController.cs:236-247 | without a manager nothing happens; with one the purchase goes through exactly when the manager's guards allow it at the stage's price and the spawn succeeds; it then charges exactly that price and adds the spawned piece of the bought stage; a refusal changes nothing |
| ShopPanel.RowCount | Assets/Scripts/ShopPanelController.cs:165-166 | the row count is the prefab's stage count (at least 1) with a manager, and exactly 1 without one |
| ShopPanel.RebuildEntries | Assets/Scripts/ShopPanelController.cs:161-187 | a no-op when the row count already matches; otherwise exactly one row per stage 1..maxStage, in order |
| ShopPanel.VisibleCount | Assets/Scripts/ShopPanelController.cs:198-210 | the number of visible rows never exceeds the number of rows |
| ShopPanel.ViewOf | Assets/Scripts/ShopPanelController.cs:204-230 | a row is shown iff its stage is within the visible limit, enabled iff its stage has been reached, and labelled with its price when enabled and as locked otherwise |
| ShopPanel.RefreshBounds | Assets/Scripts/ShopPanelController.cs:195-196 | without a manager the refresh reads highest stage 1 and limit 1 |
| ShopPanel.ExpectedViewsAt | Assets/Scripts/ShopPanelController.cs:189-234 | in the row-by-row reference refresh, row `i` gets the view of its own stage in the slot counting the visible rows before it |
| ShopPanel.RefreshEntries | Assets/Scripts/ShopPanelController.cs:189-234 | one view per row, in order: each row is shown, enabled and labelled as `ViewOf` states, in the slot that counts the visible rows before it |
| ShopPanel.VisibleCountOfWellBuilt | Assets/Scripts/ShopPanelController.cs:198-210 | with rows as built, exactly the first `limit` rows are visible, so visible rows fill slots 0, 1, 2, ... in stage order |
| ShopPanel.VisibleRowsAreUnlocked | Assets/Scripts/ShopPanelController.cs:205-212 | with a manager, every visible row is unlocked and shows its price, because the visible limit never exceeds the highest stage |
| ShopPanel.ShownPriceIsCharged | Assets/Scripts/ShopPanelController.cs:223-241 | the price a visible row shows is exactly what its button charges when the purchase goes through |
| Upgrades.MultiplyPrice | Assets/Scripts/CanvasMejorasController.cs:642-646 | at least 1; for a price of at least 1, the smallest whole number at or above `price * max(1, multiplier)` (at or above it and less than one above); strictly more than the price with a multiplier above 1; a multiplier of 1 or less keeps the price |
| Upgrades.MultiplyPriceByWhole | Assets/Scripts/CanvasMejorasController.cs:642-646 | with a whole multiplier the new price is the exact product, so multiplier 2 doubles it |
| Upgrades.InitializeUpgradeState | Assets/Scripts/CanvasMejorasController.cs:192-197 | no purchases yet, and every price is exactly `Max(1, initial price)`: the initial price when at least 1, otherwise 1 |
| Upgrades.InitialInRange | Assets/Scripts/CanvasMejorasController.cs:192-197 | the start-up panel is within every range the panel keeps |
| Upgrades.BuyAutoClickUpgrade | Assets/Scripts/CanvasMejorasController.cs:463-496 | buys iff below the cap, a manager exists and the price is affordable; a purchase counts one, debits the price, adds exactly one reduction step, and raises the price only while still below the cap; otherwise nothing changes |
| Upgrades.AutoClickReductionTracksPurchases | Assets/Scripts/CanvasMejorasController.cs:463-496 | under any number of presses the purchases never go down, and the global reduction grows by one step per purchase made |
| Upgrades.PressAutoClickStaysInRange | Assets/Scripts/CanvasMejorasController.cs:463-496 | under any number of presses the panel stays in range, so purchases never pass the cap |
| Upgrades.StepsIsProduct | Assets/Scripts/CanvasMejorasController.cs:482-483 | one step added per purchase amounts to the number of purchases times the step |
| Upgrades.BuyAutoSpawnUpgrade | Assets/Scripts/CanvasMejorasController.cs:498-537 | refused without a manager or at the best interval; a purchase enables auto-spawn at the initial interval or, once enabled, shortens the interval exactly as `ReduceSpawnInterval` does with the per-purchase reduction (never below one second), and raises the price only while the interval stays above one second |
| Upgrades.ScaledIncrease | Assets/Scripts/CanvasMejorasController.cs:559 | the step after `n` purchases is `increase / (1 + 0.2 n)`: positive, at most the full increase, and the full increase for the first purchase |
| Upgrades.ScaledIncreaseDecreasing | Assets/Scripts/CanvasMejorasController.cs:559 | each later purchase adds strictly less than an earlier one |
| Upgrades.BuyCoinMultiplierUpgrade | Assets/Scripts/CanvasMejorasController.cs:539-567 | refused without a manager or at a positive cap; a purchase counts one, debits the price, adds the shrinking step to the global multiplier, and raises the price unless the cap has just been reached |
| Upgrades.AutoClickDisplay | Assets/Scripts/CanvasMejorasController.cs:569-591 | shows MAX exactly at the cap, and the current price otherwise |
| Upgrades.AutoSpawnDisplay | Assets/Scripts/CanvasMejorasController.cs:593-616 | shows MAX exactly when a manager has auto-spawn on at an interval of one second or less, and the current price otherwise |
| Upgrades.CoinMultiplierDisplay | Assets/Scripts/CanvasMejorasController.cs:618-640 | shows MAX exactly at a positive cap, and the current price otherwise |
| Upgrades.AutoClickLabelMatchesBuy | Assets/Scripts/CanvasMejorasController.cs:569-591 | MAX means the button buys nothing; a shown price is exactly what a purchase costs, and a manager holding that much always completes it |
| Upgrades.AutoSpawnLabelMatchesBuy | Assets/Scripts/CanvasMejorasController.cs:593-616 | MAX means the button buys nothing; a shown price is exactly what a purchase costs, and a manager holding that much always completes it |
| Upgrades.CoinMultiplierLabelMatchesBuy | Assets/Scripts/CanvasMejorasController.cs:618-640 | MAX means the button buys nothing; a shown price is exactly what a purchase costs, and a manager holding that much always completes it |
| Upgrades.GetUpgradeSaveData | Assets/Scripts/CanvasMejorasController.cs:151-161 | the save record carries every counter and price of the panel |
| Upgrades.ApplyUpgradeSaveData | Assets/Scripts/CanvasMejorasController.cs:163-178 | each field is clamped as the code clamps it: auto-click purchases below 0 load as 0 and above the cap as the cap; prices below 1 load as 1; coin purchases below 0 load as 0 and above a positive cap as the cap; every in-range field is kept as saved, so the loaded panel is in range |
| Upgrades.SaveThenApplyIsIdentity | Assets/Scripts/CanvasMejorasController.cs:151-178 | saving an in-range panel and loading it back gives the same panel |
| Upgrades.ApplyThenSaveIsStable | Assets/Scripts/CanvasMejorasController.cs:151-178 | loading is idempotent: a loaded panel saves and loads back to itself |
| Upgrades.DefaultAutoClickPrices | Assets/Scripts/CanvasMejorasController.cs:29-30 | with the defaults the first auto-click upgrade costs 100 and the second 200 |

## Left out

- Floating point. Money, multipliers and intervals are exact reals and prices are unbounded integers. Neither `float` rounding nor 32-bit overflow of a price (the shop price `25 * 2^(stage - 1)` passes the `int` range above stage 27) is modelled.
- User interface, audio and input: panel layout, colours, fonts, sorting orders, sounds, dragging, and the scale animations of a tap and a fusion. A release is an event of the model; the end of the growth animation is `Fusion.FinishFusionAnimation`.
- `GameManager.FindSpawnPosition`: random placement with a physics overlap query. A spawned piece has no position in the model.
- Scene wiring: container lookup by name, the scene load and unload hooks, the initial piece spawned on scene load, and the object search that counts pieces (the population is the size of the scene map).
- JSON and `PlayerPrefs` serialisation. A save is its logical record (`GameManager.SaveData`, `Upgrades.UpgradeSaveData`). Piece positions in a save and their restoration are not modelled. The upgrade panel's record is applied separately, as the game applies it.
- The periodic auto-click timer that reads the global reduction is not part of this model (its code lies outside the modelled scripts). `FusionObject.SetStage`, `FusionObject.GetStage` and the `ClickableObject` statics are not part of this model beyond the state effects described above.
- The null-entry skip in the shop row refresh: rows are never null in the model.
- `ShopPanel.GetStagePrice` requires a stage of at least 1. Every row, and so every caller, has such a stage; the power at negative exponents is not modelled.
- `Upgrades.BuyCoinMultiplierUpgrade` requires a non-negative purchase count. The panel starts at 0, only increments, and loads clamp the count to at least 0, so the step's divisor is never 0.

## Findings

| source | as written | input that shows it | evidently intended | confidence | as-written member | corrected member |
|---|---|---|---|---|---|---|
| Assets/Scripts/GameManager.cs:306-319 | `RegisterBrainrot` tries the world unlock before the move and again after it. The first try already consumes the one-shot unlock, so the second try, the only one followed by the switch to the second world, always fails. | defaults, locked world, a stage-12 piece registered: the world unlocks but the first world stays on screen. None of the modelled scripts calls `RegisterBrainrot`; its callers (a piece's start-up code) are not part of this model, so whether such a registration happens depends on them | as in `OnBrainrotStageChanged`: the call that unlocks the world for a stage-11+ piece also switches to it | high (not executed) | GameManager.RegisterBrainrotNeverSwitches | GameManager.RegisterBrainrotSwitching |
| Assets/Scripts/GameManager.cs:339-346 | Pieces of stage 11 and up are moved to the second world, but that world unlocks only above stage 11 (the default unlock stage). | defaults, locked world showing the first world, a piece reaching stage 11: it is re-parented to the hidden second world, which stays locked, and no control can show it. `ReceiveFusion` raises the stage without notifying the manager; the caller of `OnBrainrotStageChanged` (presumably `FusionObject.SetStage`) is not part of this model, so the input depends on it | a piece is sent to the second world only once that world is unlocked | medium (not executed) | GameManager.StageElevenHiddenOnLockedWorld | GameManager.OnBrainrotStageChangedAligned |
| Assets/Scripts/FusionObject.cs:39-48 | The release does not compare the candidate's stage with the releaser's. A candidate recorded at equal stages keeps its place after it grows. | three touching stage-3 pieces 0, 1, 2; pieces 0 and 2 record 1; release 0 (1 becomes stage 4); release 2: piece 1 absorbs a stage-3 piece and becomes stage 5 | only two pieces of one stage fuse | medium (not executed) | Fusion.StaleCandidateFusesUnequalStages | Fusion.TryFusionOnReleaseSameStage |

=== FILE: clickable.dfy ===
/** Tapping a piece (Assets/Scripts/ClickableObject.cs) and the two global
    upgrade scalars the upgrade panel adjusts: the coin multiplier and the
    auto-click interval reduction.

    The reward for a tap depends only on the piece's stage: 10 coins at
    stage 1, doubling with every stage. The global coin multiplier is not
    applied to it. */
module Clickable {
  import opened Wrappers
  import opened Numeric
  import GM = GameManager

  /** The reward before any multiplier: `10 * 2^(stage - 1)`. A stage below 1
      gives a fraction of 10, as the float power does. */
  function TapReward(stage: int): (r: real)
    ensures r > 0.0
  {
    10.0 * Pow2(stage - 1)
  }

  /** A natural power of two is at least one. */
  lemma {:induction false} PowAtLeastOne(n: nat)
    ensures Pow2(n) >= 1.0
  {
    if n > 0 {
      PowAtLeastOne(n - 1);
      Pow2Step(n - 1);
    }
  }

  lemma TapRewardAtStageOne()
    ensures TapReward(1) == 10.0
  {
  }

  /** From stage 1 on a tap is worth at least 10 coins. */
  lemma TapRewardAtLeastTen(stage: int)
    requires stage >= 1
    ensures TapReward(stage) >= 10.0
  {
    PowAtLeastOne(stage - 1);
  }

  /** One stage higher is worth exactly twice as much. */
  lemma TapRewardDoubles(stage: int)
    ensures TapReward(stage + 1) == 2.0 * TapReward(stage)
  {
    Pow2Step(stage - 1);
  }

  /** Over stages 1 and up the reward is `10 * 2^(stage - 1)` in whole coins. */
  lemma {:induction false} TapRewardIsWholeCoins(stage: int)
    requires stage >= 1
    ensures TapReward(stage) == (10 * PowInt(2, stage - 1)) as real
    decreases stage
  {
    if stage == 1 {
      assert TapReward(1) == 10.0;
    } else {
      TapRewardIsWholeCoins(stage - 1);
      TapRewardDoubles(stage - 1);
    }
  }

  /** A tap on a piece. Without a fusion component the stage counts as 1.
      With a manager reachable the reward is credited exactly once, and
      nothing else changes; without one the tap is lost. */
  function OnMouseDown(manager: Option<GM.GameState>, fusionStage: Option<int>): (r: Option<GM.GameState>)
    ensures r.None? <==> manager.None?
    ensures manager.Some? ==>
      r.value.money == manager.value.money + TapReward(fusionStage.GetOr(1))
    ensures manager.Some? ==> r.value.(money := manager.value.money) == manager.value
  {
    var stage := fusionStage.GetOr(1);
    var money := TapReward(stage);
    match manager
    case None => None
    case Some(g) => Some(GM.AddMoney(g, money))
  }

  /** Taps on pieces of the given stages, in order, all credited. */
  function TapAll(g: GM.GameState, stages: seq<int>): (r: GM.GameState)
    decreases |stages|
  {
    if stages == [] then g
    else TapAll(OnMouseDown(Some(g), Some(stages[0])).value, stages[1..])
  }

  function SumRewards(stages: seq<int>): real
    decreases |stages|
  {
    if stages == [] then 0.0 else TapReward(stages[0]) + SumRewards(stages[1..])
  }

  /** A run of taps credits the sum of their rewards and touches nothing
      but the balance. */
  lemma {:induction false} TapAllCreditsSum(g: GM.GameState, stages: seq<int>)
    ensures TapAll(g, stages).money == g.money + SumRewards(stages)
    ensures TapAll(g, stages).(money := g.money) == g
    decreases |stages|
  {
    if stages != [] {
      var next := OnMouseDown(Some(g), Some(stages[0])).value;
      TapAllCreditsSum(next, stages[1..]);
    }
  }

  /** Adds `reduction` to the global auto-click interval reduction. */
  function ApplyGlobalAutoClickUpgrade(g: GM.GameState, reduction: real): (r: GM.GameState)
    ensures r.autoClickReduction == g.autoClickReduction + reduction
    ensures r.(autoClickReduction := g.autoClickReduction) == g
  {
    g.(autoClickReduction := g.autoClickReduction + reduction)
  }

  /** Adds `amount` to the global coin multiplier. */
  function IncreaseGlobalMoneyMultiplier(g: GM.GameState, amount: real): (r: GM.GameState)
    ensures r.moneyMultiplier == g.moneyMultiplier + amount
    ensures r.(moneyMultiplier := g.moneyMultiplier) == g
  {
    g.(moneyMultiplier := g.moneyMultiplier + amount)
  }
}

=== FILE: fusion.dfy ===
/** The merge-able pieces ("brainrots") of Assets/Scripts/FusionObject.cs.

    Every live piece sits in a `Scene` under an opaque id. A piece remembers at
    most one fusion candidate: the last same-stage piece it was seen touching.
    When the player releases a dragged piece that has a candidate, the
    candidate gains one stage and the released piece is destroyed.

    The scene also models two engine rules that the code depends on:
    - Unity's `Destroy` takes effect at the end of the frame. Until then the
      released piece stays in the scene, listed in `doomed`.
    - A reference to a destroyed object compares equal to null. A candidate id
      that is no longer in the scene therefore reads as "no candidate" (`Live`). */
module Fusion {
  import opened Wrappers

  type Id = nat

  /** The two world containers a piece can be parented to. */
  datatype Screen = Screen1 | Screen2

  datatype Brainrot = Brainrot(
    stage: int,
    candidate: Option<Id>,
    fusionInProgress: bool,
    /** index into the stage sprite table, if one was ever assigned */
    sprite: Option<nat>,
    /** the world container the piece is parented to, if any */
    screen: Option<Screen>)

  datatype Scene = Scene(objects: map<Id, Brainrot>, doomed: set<Id>, nextId: Id)

  /** The outcome of a release: whether a fusion was committed, and the scene after it. */
  datatype Release = Release(fused: bool, scene: Scene)

  /** The stage a freshly instantiated piece carries. */
  const InitialStage: int := 1

  const EmptyScene: Scene := Scene(map[], {}, 0)

  /** Ids are fresh below `nextId`; only live pieces are doomed; no piece is its
      own candidate; and every doomed piece has its re-entrancy guard set. */
  ghost predicate Valid(sc: Scene)
  {
    && (forall id | id in sc.objects :: id < sc.nextId)
    && sc.doomed <= sc.objects.Keys
    && (forall id | id in sc.objects :: sc.objects[id].candidate != Some(id))
    && (forall id | id in sc.doomed :: sc.objects[id].fusionInProgress)
  }

  /** The number of pieces an object search finds, doomed ones included. */
  function Population(sc: Scene): nat
  {
    |sc.objects|
  }

  /** A reference as Unity's null test sees it: an id of a piece no longer in
      the scene reads as none. */
  function Live(sc: Scene, ref: Option<Id>): (r: Option<Id>)
    ensures r.Some? <==> ref.Some? && ref.value in sc.objects
    ensures r.Some? ==> r == ref
  {
    if ref.Some? && ref.value in sc.objects then ref else None
  }

  /** The sprite a piece shows after a stage change: the table entry for the
      stage when there is one, otherwise the sprite it already had. */
  function UpdateSprite(current: Option<nat>, stage: int, spriteCount: nat): (r: Option<nat>)
    ensures 0 <= stage - 1 < spriteCount ==> r == Some(stage - 1)
    ensures !(0 <= stage - 1 < spriteCount) ==> r == current
  {
    if spriteCount == 0 then current
    else if 0 <= stage - 1 < spriteCount then Some(stage - 1)
    else current
  }

  /** A piece shows the sprite of its own stage whenever the table has one. */
  ghost predicate SpriteMatchesStage(b: Brainrot, spriteCount: nat)
  {
    0 <= b.stage - 1 < spriteCount ==> b.sprite == Some(b.stage - 1)
  }

  /** A new piece placed in `screen`: it wakes up at the initial stage (and
      takes that stage's sprite), then is set to `stage`. */
  function Instantiate(sc: Scene, stage: int, spriteCount: nat, screen: Screen): (r: Scene)
    requires Valid(sc)
    ensures Valid(r)
    ensures Population(r) == Population(sc) + 1
    ensures r.objects.Keys == sc.objects.Keys + {sc.nextId}
    ensures sc.nextId !in sc.objects
    ensures forall id | id in sc.objects :: r.objects[id] == sc.objects[id]
    ensures var b := r.objects[sc.nextId];
      b.stage == stage && b.candidate == None && !b.fusionInProgress && b.screen == Some(screen)
    ensures r.doomed == sc.doomed
  {
    var b := Brainrot(InitialStage, None, false, UpdateSprite(None, InitialStage, spriteCount), Some(screen));
    Scene(sc.objects[sc.nextId := b.(stage := stage)], sc.doomed, sc.nextId + 1)
  }

  /** `other` is a live piece, distinct from `self`, at `self`'s stage. */
  predicate SameStageContact(sc: Scene, self: Id, other: Option<Id>)
  {
    && self in sc.objects
    && Live(sc, other).Some?
    && sc.objects[other.value].stage == sc.objects[self].stage
  }

  /** A physics frame in which `self` touches `other` (`None` when the other
      body is not a piece): a same-stage piece becomes `self`'s candidate;
      anything else leaves the scene as it was (an older candidate is kept). */
  function CollisionStay(sc: Scene, self: Id, other: Option<Id>): (r: Scene)
    requires Valid(sc)
    requires other != Some(self)
    ensures Valid(r)
    ensures SameStageContact(sc, self, other) ==>
      r == sc.(objects := sc.objects[self := sc.objects[self].(candidate := other)])
    ensures !SameStageContact(sc, self, other) ==> r == sc
  {
    if self !in sc.objects then sc
    else if Live(sc, other).None? then sc
    else if sc.objects[other.value].stage != sc.objects[self].stage then sc
    else sc.(objects := sc.objects[self := sc.objects[self].(candidate := other)])
  }

  /** `self` stops touching `other`: the candidate is dropped only when `other`
      is that candidate (compared as Unity compares references). */
  function CollisionExit(sc: Scene, self: Id, other: Option<Id>): (r: Scene)
    requires Valid(sc)
    ensures Valid(r)
    ensures self in sc.objects && Live(sc, other) == Live(sc, sc.objects[self].candidate) ==>
      r == sc.(objects := sc.objects[self := sc.objects[self].(candidate := None)])
    ensures !(self in sc.objects && Live(sc, other) == Live(sc, sc.objects[self].candidate)) ==> r == sc
  {
    if self !in sc.objects then sc
    else if Live(sc, other) == Live(sc, sc.objects[self].candidate) then
      sc.(objects := sc.objects[self := sc.objects[self].(candidate := None)])
    else sc
  }

  /** The surviving side of a fusion: its stage goes up by one and its sprite
      follows; the guard, candidate and container are untouched (the guard
      is cleared only when the growth animation ends). */
  function ReceiveFusion(b: Brainrot, spriteCount: nat): (r: Brainrot)
    ensures r.stage == b.stage + 1
    ensures r.candidate == b.candidate && r.fusionInProgress == b.fusionInProgress && r.screen == b.screen
    ensures SpriteMatchesStage(r, spriteCount)
    ensures !(0 <= r.stage - 1 < spriteCount) ==> r.sprite == b.sprite
  {
    var grown := b.stage + 1;
    b.(stage := grown, sprite := UpdateSprite(b.sprite, grown, spriteCount))
  }

  /** A release commits a fusion exactly when the piece is live, not already
      fusing, and holds a live candidate. */
  predicate CanFuse(sc: Scene, self: Id)
  {
    && self in sc.objects
    && !sc.objects[self].fusionInProgress
    && Live(sc, sc.objects[self].candidate).Some?
  }

  /** The player lets go of `self`. When it can fuse, its guard is set, its
      candidate receives the fusion, and `self` is scheduled for destruction.
      The candidate's stage is not compared with `self`'s at this point. */
  function TryFusionOnRelease(sc: Scene, self: Id, spriteCount: nat): (r: Release)
    requires Valid(sc)
    ensures Valid(r.scene)
    ensures r.fused <==> CanFuse(sc, self)
    ensures !r.fused ==> r.scene == sc
    ensures r.fused ==>
      var c := sc.objects[self].candidate.value;
      && c != self
      && r.scene.objects.Keys == sc.objects.Keys
      && r.scene.objects[c] == ReceiveFusion(sc.objects[c], spriteCount)
      && r.scene.objects[c].stage == sc.objects[c].stage + 1
      && r.scene.objects[self] == sc.objects[self].(fusionInProgress := true)
      && r.scene.doomed == sc.doomed + {self}
      && r.scene.nextId == sc.nextId
      && (forall id | id in sc.objects && id != self && id != c :: r.scene.objects[id] == sc.objects[id])
  {
    if self !in sc.objects then Release(false, sc)
    else
      var b := sc.objects[self];
      if b.fusionInProgress then Release(false, sc)
      else if Live(sc, b.candidate).None? then Release(false, sc)
      else
        var c := b.candidate.value;
        var objects := sc.objects[self := b.(fusionInProgress := true)];
        var objects' := objects[c := ReceiveFusion(objects[c], spriteCount)];
        Release(true, Scene(objects', sc.doomed + {self}, sc.nextId))
  }

  /** The end of the frame: every doomed piece leaves the scene; the others stay
      as they are. */
  function EndOfFrame(sc: Scene): (r: Scene)
    requires Valid(sc)
    ensures Valid(r)
    ensures r.objects.Keys == sc.objects.Keys - sc.doomed
    ensures Population(r) == Population(sc) - |sc.doomed|
    ensures forall id | id in r.objects :: r.objects[id] == sc.objects[id]
    ensures r.doomed == {} && r.nextId == sc.nextId
  {
    var r := Scene(sc.objects - sc.doomed, {}, sc.nextId);
    assert r.objects.Keys == sc.objects.Keys - sc.doomed;
    assert |r.objects.Keys| == |sc.objects.Keys| - |sc.doomed| by {
      CardinalityOfDifference(sc.objects.Keys, sc.doomed);
    }
    r
  }

  lemma CardinalityOfDifference<T>(a: set<T>, b: set<T>)
    requires b <= a
    ensures |a - b| == |a| - |b|
  {
    assert a == (a - b) + b;
  }

  /** The growth animation of piece `id` has finished: its guard is cleared.
      A destroyed or doomed piece never finishes its animation. */
  function FinishFusionAnimation(sc: Scene, id: Id): (r: Scene)
    requires Valid(sc)
    ensures Valid(r)
    ensures r.objects.Keys == sc.objects.Keys && r.doomed == sc.doomed
    ensures id in sc.objects && id !in sc.doomed ==>
      r.objects[id] == sc.objects[id].(fusionInProgress := false)
    ensures !(id in sc.objects && id !in sc.doomed) ==> r == sc
    ensures forall other | other in sc.objects && other != id :: r.objects[other] == sc.objects[other]
  {
    if id in sc.objects && id !in sc.doomed then
      sc.(objects := sc.objects[id := sc.objects[id].(fusionInProgress := false)])
    else sc
  }

  /** A committed fusion followed by the end of the frame: exactly one piece
      (the released one) is gone, its candidate is one stage higher, and
      every other piece is unchanged. */
  lemma ReleaseRemovesExactlyOne(sc: Scene, self: Id, spriteCount: nat)
    requires Valid(sc) && sc.doomed == {}
    requires CanFuse(sc, self)
    ensures var r := TryFusionOnRelease(sc, self, spriteCount);
      var after := EndOfFrame(r.scene);
      var c := sc.objects[self].candidate.value;
      && r.fused
      && Population(after) == Population(sc) - 1
      && self !in after.objects
      && c in after.objects && after.objects[c].stage == sc.objects[c].stage + 1
      && (forall id | id in sc.objects && id != self && id != c :: id in after.objects && after.objects[id] == sc.objects[id])
  {
    var r := TryFusionOnRelease(sc, self, spriteCount);
    assert r.scene.doomed == {self};
    assert |r.scene.doomed| == 1;
  }

  /** The guard makes a release re-entrant-safe: a piece that has just fused
      cannot fuse again before it is destroyed. */
  lemma GuardBlocksSecondRelease(sc: Scene, self: Id, spriteCount: nat)
    requires Valid(sc)
    requires TryFusionOnRelease(sc, self, spriteCount).fused
    ensures !TryFusionOnRelease(TryFusionOnRelease(sc, self, spriteCount).scene, self, spriteCount).fused
  {
  }

  /** Touching pieces that never fuse: a candidate, once recorded, was a live
      piece at the same stage at the moment it was recorded. */
  lemma CandidateRecordedOnlyAtSameStage(sc: Scene, self: Id, other: Option<Id>)
    requires Valid(sc) && other != Some(self)
    requires self in sc.objects
    requires CollisionStay(sc, self, other).objects[self].candidate != sc.objects[self].candidate
    ensures other.Some? && other.value in sc.objects
    ensures sc.objects[other.value].stage == sc.objects[self].stage
    ensures CollisionStay(sc, self, other).objects[self].candidate == other
  {
  }

  // ---------------------------------------------------------------------------
  // Finding: a stale candidate can fuse pieces of different stages.
  //
  // A candidate is recorded while the stages agree, but `TryFusionOnRelease`
  // does not compare them again. If the candidate grows in the meantime (by
  // receiving another piece), releasing the first piece still fuses it.

  /** Three stage-3 pieces, 0 and 2 both touching piece 1. */
  function ThreeTouching(): Scene
  {
    var p := Brainrot(3, None, false, None, Some(Screen1));
    Scene(map[0 := p, 1 := p, 2 := p], {}, 3)
  }

  /** Piece 2 records piece 1, piece 0 records piece 1, piece 0 is released
      (piece 1 grows to stage 4), the frame ends, then piece 2 (still stage 3)
      is released: piece 1 grows to stage 5 by absorbing a stage-3 piece. */
  lemma StaleCandidateFusesUnequalStages()
    ensures var sc0 := ThreeTouching();
      var sc1 := CollisionStay(sc0, 2, Some(1));
      var sc2 := CollisionStay(sc1, 0, Some(1));
      var sc3 := EndOfFrame(TryFusionOnRelease(sc2, 0, 0).scene);
      var r := TryFusionOnRelease(sc3, 2, 0);
      && Valid(sc0) && Valid(sc2)
      && r.fused
      && sc3.objects[2].stage == 3
      && sc3.objects[1].stage == 4
      && r.scene.objects[1].stage == 5
  {
    var sc0 := ThreeTouching();
    assert Valid(sc0);
    var sc1 := CollisionStay(sc0, 2, Some(1));
    assert SameStageContact(sc0, 2, Some(1));
    assert sc1.objects[2].candidate == Some(1);
    var sc2 := CollisionStay(sc1, 0, Some(1));
    assert SameStageContact(sc1, 0, Some(1));
    assert sc2.objects[0].candidate == Some(1);
    assert CanFuse(sc2, 0);
    var r0 := TryFusionOnRelease(sc2, 0, 0);
    assert r0.scene.objects[1].stage == 4;
    var sc3 := EndOfFrame(r0.scene);
    assert 1 in sc3.objects && 2 in sc3.objects;
    assert sc3.objects[2] == sc2.objects[2];
    assert CanFuse(sc3, 2);
  }

  /** The release as evidently intended: the candidate must still be at the
      releaser's stage, so a fusion always joins two pieces of one stage. */
  function TryFusionOnReleaseSameStage(sc: Scene, self: Id, spriteCount: nat): (r: Release)
    requires Valid(sc)
    ensures Valid(r.scene)
    ensures r.fused <==> CanFuse(sc, self) && sc.objects[sc.objects[self].candidate.value].stage == sc.objects[self].stage
    ensures !r.fused ==> r.scene == sc
    ensures r.fused ==>
      var c := sc.objects[self].candidate.value;
      && r.scene.objects.Keys == sc.objects.Keys
      && r.scene.objects[c].stage == sc.objects[self].stage + 1
      && r.scene.objects[self] == sc.objects[self].(fusionInProgress := true)
      && r.scene.doomed == sc.doomed + {self}
  {
    if CanFuse(sc, self) && sc.objects[sc.objects[self].candidate.value].stage == sc.objects[self].stage then
      TryFusionOnRelease(sc, self, spriteCount)
    else Release(false, sc)
  }

  /** With the stage check, the stale release of the finding is refused. */
  lemma SameStageReleaseRefusesStaleCandidate()
    ensures var sc0 := ThreeTouching();
      var sc1 := CollisionStay(sc0, 2, Some(1));
      var sc2 := CollisionStay(sc1, 0, Some(1));
      var sc3 := EndOfFrame(TryFusionOnReleaseSameStage(sc2, 0, 0).scene);
      && Valid(sc0)
      && !TryFusionOnReleaseSameStage(sc3, 2, 0).fused
  {
    var sc0 := ThreeTouching();
    assert Valid(sc0);
    var sc1 := CollisionStay(sc0, 2, Some(1));
    assert SameStageContact(sc0, 2, Some(1));
    var sc2 := CollisionStay(sc1, 0, Some(1));
    assert SameStageContact(sc1, 0, Some(1));
    assert CanFuse(sc2, 0);
    var r0 := TryFusionOnReleaseSameStage(sc2, 0, 0);
    assert r0.fused;
    var sc3 := EndOfFrame(r0.scene);
    assert sc3.objects[2] == sc2.objects[2];
    assert sc3.objects[1].stage == 4;
  }
}

=== FILE: game_manager.dfy ===
/** The economy and progression state of Assets/Scripts/GameManager.cs:
    - the money ledger;
    - shop purchases, with their per-stage counts;
    - the highest stage reached, which drives how many shop rows are visible;
    - the one-shot unlock of the second world;
    - the auto-spawn timer, bounded by the population cap;
    - the clamps applied to a loaded save.

    Each transition is a pure function from one `GameState` to the next. The
    scene around the manager is an `Env`: whether a piece prefab is assigned,
    how many stage sprites it carries, and which world containers exist.
    Placement, scene loading and the stored text of a save are engine work and
    are not modelled. */
module GameManager {
  import opened Wrappers
  import opened Numeric
  import Fusion
  import SP = ShopPurchases

  /** What the scene provides to the manager. */
  datatype Env = Env(prefabAssigned: bool, spriteCount: nat, hasScreen1: bool, hasScreen2: bool)

  /** Inspector settings. */
  datatype Config = Config(maxObjects: int, changeWorldUnlockStage: int)

  const Defaults: Config := Config(12, 11)

  /** Pieces of this stage or higher are placed in the second world. */
  const Screen2Stage: int := 11

  /** Below this highest stage the shop shows only stage 1 ... */
  const VisibleLimitStart: int := 10
  /** ... and from there on it shows this many stages fewer than the highest. */
  const VisibleLimitLag: int := 8

  datatype GameState = GameState(
    money: real,
    highestStage: int,
    autoSpawnEnabled: bool,
    spawnInterval: real,
    spawnTimer: real,
    showingScreen1: bool,
    changeWorldUnlocked: bool,
    shopCounts: map<int, int>,
    /** the global money multiplier, a static of ClickableObject */
    moneyMultiplier: real,
    /** the global auto-click interval reduction, a static of ClickableObject */
    autoClickReduction: real,
    scene: Fusion.Scene)

  /** The result of a guarded transition: whether it took effect, and the state after it. */
  datatype Step = Step(ok: bool, state: GameState)

  /** A fresh manager with the field initialisers of the class. The two global
      scalars start at whatever their owner holds. */
  function Initial(moneyMultiplier: real, autoClickReduction: real): (g: GameState)
    ensures Valid(g)
    ensures g.money == 0.0 && g.highestStage == 1 && !g.changeWorldUnlocked
    ensures g.autoSpawnEnabled && g.spawnInterval == 10.0 && g.showingScreen1
    ensures g.shopCounts == map[] && Fusion.Population(g.scene) == 0
  {
    GameState(0.0, 1, true, 10.0, 0.0, true, false, map[], moneyMultiplier, autoClickReduction, Fusion.EmptyScene)
  }

  ghost predicate Valid(g: GameState)
  {
    && g.highestStage >= 1
    && SP.ValidCounts(g.shopCounts)
    && Fusion.Valid(g.scene)
  }

  function Population(g: GameState): nat
  {
    Fusion.Population(g.scene)
  }

  /** The population counts the pieces doomed this frame as well as the
      live ones. */
  lemma PopulationCountsDoomed(g: GameState)
    requires Valid(g)
    ensures Population(g) == |g.scene.objects.Keys - g.scene.doomed| + |g.scene.doomed|
  {
    Fusion.CardinalityOfDifference(g.scene.objects.Keys, g.scene.doomed);
  }

  // ---------------------------------------------------------------------------
  // Ledger

  /** Credits `amount`, unchecked; nothing but the balance changes. */
  function AddMoney(g: GameState, amount: real): (r: GameState)
    ensures r.money == g.money + amount
    ensures r.(money := g.money) == g
  {
    g.(money := g.money + amount)
  }

  /** Debits `amount` when the balance covers it. A non-positive amount
      succeeds without touching the balance. */
  function TrySpendMoney(g: GameState, amount: real): (r: Step)
    ensures amount <= 0.0 ==> r.ok && r.state == g
    ensures 0.0 < amount && g.money < amount ==> !r.ok && r.state == g
    ensures 0.0 < amount <= g.money ==> r.ok && r.state.money == g.money - amount
    ensures r.state.(money := g.money) == g
    ensures g.money >= 0.0 ==> r.state.money >= 0.0
  {
    if amount <= 0.0 then Step(true, g)
    else if g.money < amount then Step(false, g)
    else Step(true, g.(money := g.money - amount))
  }

  /** A successful positive debit is undone by crediting the same amount. */
  lemma SpendThenAddRestores(g: GameState, amount: real)
    requires amount > 0.0 && TrySpendMoney(g, amount).ok
    ensures AddMoney(TrySpendMoney(g, amount).state, amount) == g
  {
  }

  datatype LedgerOp = Add(amount: real) | Spend(amount: real)

  /** Applies ledger operations in order, ignoring whether each spend succeeded. */
  function RunLedger(g: GameState, ops: seq<LedgerOp>): GameState
    decreases |ops|
  {
    if ops == [] then g
    else
      var next := match ops[0]
        case Add(a) => AddMoney(g, a)
        case Spend(a) => TrySpendMoney(g, a).state;
      RunLedger(next, ops[1..])
  }

  /** The balance never goes negative under any mix of non-negative credits
      and spends. */
  lemma {:induction false} LedgerStaysNonNegative(g: GameState, ops: seq<LedgerOp>)
    requires g.money >= 0.0
    requires forall i | 0 <= i < |ops| && ops[i].Add? :: ops[i].amount >= 0.0
    ensures RunLedger(g, ops).money >= 0.0
    decreases |ops|
  {
    if ops != [] {
      var next := match ops[0]
        case Add(a) => AddMoney(g, a)
        case Spend(a) => TrySpendMoney(g, a).state;
      assert next.money >= 0.0;
      assert forall i | 0 <= i < |ops[1..]| :: ops[1..][i] == ops[i + 1];
      LedgerStaysNonNegative(next, ops[1..]);
    }
  }

  // ---------------------------------------------------------------------------
  // Progression

  /** The number of stages the piece prefab has sprites for; 1 when unknown. */
  function MaxBrainrotStage(env: Env): (r: int)
    ensures r >= 1
    ensures env.prefabAssigned && env.spriteCount > 0 ==> r == env.spriteCount
    ensures !(env.prefabAssigned && env.spriteCount > 0) ==> r == 1
  {
    if !env.prefabAssigned || env.spriteCount == 0 then 1 else env.spriteCount
  }

  /** The highest stage the shop shows, given the highest stage reached: stage 1
      alone until stage 10 is reached, then eight stages behind the highest,
      kept within the stages that exist. */
  function VisibleShopStageLimit(highest: int, maxStage: int): (r: int)
    ensures maxStage >= 1 ==> 1 <= r <= maxStage
    ensures maxStage >= 1 && highest < VisibleLimitStart ==> r == 1
    ensures VisibleLimitStart <= highest && highest - VisibleLimitLag <= maxStage ==> r == highest - VisibleLimitLag
    ensures maxStage >= 1 && highest - VisibleLimitLag > maxStage ==> r == maxStage
    ensures highest >= 1 ==> r <= highest
  {
    var limit := if highest >= VisibleLimitStart then highest - VisibleLimitLag else 1;
    Clamp(limit, 1, maxStage)
  }

  function GetVisibleShopStageLimit(env: Env, g: GameState): (r: int)
    ensures 1 <= r <= MaxBrainrotStage(env)
    ensures g.highestStage >= 1 ==> r <= g.highestStage
    ensures g.highestStage < VisibleLimitStart ==> r == 1
    ensures VisibleLimitStart <= g.highestStage && g.highestStage - VisibleLimitLag <= MaxBrainrotStage(env) ==>
      r == g.highestStage - VisibleLimitLag
    ensures g.highestStage - VisibleLimitLag > MaxBrainrotStage(env) ==> r == MaxBrainrotStage(env)
  {
    VisibleShopStageLimit(g.highestStage, MaxBrainrotStage(env))
  }

  /** Reaching a higher stage never shrinks the visible part of the shop. */
  lemma VisibleLimitMonotone(highest: int, highest': int, maxStage: int)
    requires highest <= highest'
    ensures VisibleShopStageLimit(highest, maxStage) <= VisibleShopStageLimit(highest', maxStage)
  {
  }

  /** Raises the highest stage reached to `stage` (at least 1) if that is
      higher; `r.ok` tells whether the change notification fires. */
  function TrackHighestStage(g: GameState, stage: int): (r: Step)
    ensures r.ok <==> Max(1, stage) > g.highestStage
    ensures r.state.highestStage >= g.highestStage
    ensures r.state.highestStage >= stage && r.state.highestStage >= 1
    ensures r.state.highestStage == g.highestStage || r.state.highestStage == Max(1, stage)
    ensures r.state.(highestStage := g.highestStage) == g
  {
    var clamped := Max(1, stage);
    if clamped <= g.highestStage then Step(false, g)
    else Step(true, g.(highestStage := clamped))
  }

  /** Tracks each stage in turn, counting the notifications. */
  function TrackAll(g: GameState, stages: seq<int>): (r: (GameState, nat))
    decreases |stages|
  {
    if stages == [] then (g, 0)
    else
      var step := TrackHighestStage(g, stages[0]);
      var rest := TrackAll(step.state, stages[1..]);
      (rest.0, rest.1 + (if step.ok then 1 else 0))
  }

  /** Along any run of tracked stages the counter never decreases, ends at or
      above every stage seen, and nothing else changes. */
  lemma {:induction false} TrackAllMonotone(g: GameState, stages: seq<int>)
    ensures TrackAll(g, stages).0.highestStage >= g.highestStage
    ensures forall i | 0 <= i < |stages| :: TrackAll(g, stages).0.highestStage >= stages[i]
    ensures TrackAll(g, stages).0.(highestStage := g.highestStage) == g
    decreases |stages|
  {
    if stages != [] {
      var step := TrackHighestStage(g, stages[0]);
      TrackAllMonotone(step.state, stages[1..]);
      assert forall i | 1 <= i < |stages| :: stages[i] == stages[1..][i - 1];
    }
  }

  // ---------------------------------------------------------------------------
  // Second world

  /** The stage a piece must exceed to unlock the second world (at least 1). */
  function UnlockStage(cfg: Config): (r: int)
    ensures r >= 1 && r >= cfg.changeWorldUnlockStage
    ensures r == 1 || r == cfg.changeWorldUnlockStage
    ensures cfg.changeWorldUnlockStage >= 1 ==> r == cfg.changeWorldUnlockStage
  {
    Max(1, cfg.changeWorldUnlockStage)
  }

  /** Sets the unlocked flag; it is never cleared. */
  function UnlockChangeWorld(g: GameState): (r: GameState)
    ensures r.changeWorldUnlocked
    ensures r.(changeWorldUnlocked := g.changeWorldUnlocked) == g
  {
    if g.changeWorldUnlocked then g else g.(changeWorldUnlocked := true)
  }

  /** Unlocks the second world for a piece whose stage exceeds the unlock
      stage; `r.ok` is true only for the call that actually unlocks. */
  function TryUnlockChangeWorldForStage(cfg: Config, g: GameState, stage: int): (r: Step)
    ensures r.ok <==> stage > UnlockStage(cfg) && !g.changeWorldUnlocked
    ensures r.ok ==> r.state == g.(changeWorldUnlocked := true)
    ensures !r.ok ==> r.state == g
  {
    var unlockStage := UnlockStage(cfg);
    if stage > unlockStage && !g.changeWorldUnlocked then Step(true, UnlockChangeWorld(g))
    else Step(false, g)
  }

  /** Tries the unlock for each stage in turn, counting the successful calls. */
  function UnlockAll(cfg: Config, g: GameState, stages: seq<int>): (r: (GameState, nat))
    decreases |stages|
  {
    if stages == [] then (g, 0)
    else
      var step := TryUnlockChangeWorldForStage(cfg, g, stages[0]);
      var rest := UnlockAll(cfg, step.state, stages[1..]);
      (rest.0, rest.1 + (if step.ok then 1 else 0))
  }

  /** However many pieces cross the threshold, the unlock succeeds at most
      once, and exactly once when the world was locked and some stage exceeds
      the unlock stage; the flag never resets. */
  lemma {:induction false} UnlockAtMostOnce(cfg: Config, g: GameState, stages: seq<int>)
    ensures UnlockAll(cfg, g, stages).1 <= 1
    ensures g.changeWorldUnlocked ==> UnlockAll(cfg, g, stages).1 == 0
    ensures UnlockAll(cfg, g, stages).1 == 1 <==>
      !g.changeWorldUnlocked && exists i | 0 <= i < |stages| :: stages[i] > UnlockStage(cfg)
    ensures g.changeWorldUnlocked ==> UnlockAll(cfg, g, stages).0.changeWorldUnlocked
    decreases |stages|
  {
    if stages != [] {
      var step := TryUnlockChangeWorldForStage(cfg, g, stages[0]);
      UnlockAtMostOnce(cfg, step.state, stages[1..]);
      if !g.changeWorldUnlocked && !step.ok {
        if exists i | 0 <= i < |stages| :: stages[i] > UnlockStage(cfg) {
          var i :| 0 <= i < |stages| && stages[i] > UnlockStage(cfg);
          assert stages[1..][i - 1] == stages[i];
        }
        if exists i | 0 <= i < |stages[1..]| :: stages[1..][i] > UnlockStage(cfg) {
          var i :| 0 <= i < |stages[1..]| && stages[1..][i] > UnlockStage(cfg);
          assert stages[i + 1] == stages[1..][i];
        }
      }
    }
  }

  function AutoSwitchToScreen2(g: GameState): (r: GameState)
    ensures !r.showingScreen1
    ensures r.(showingScreen1 := g.showingScreen1) == g
  {
    g.(showingScreen1 := false)
  }

  // ---------------------------------------------------------------------------
  // Spawning

  /** The container a piece of `stage` is placed in: the second world from
      stage 11 on, the first below; either falls back to the other one. */
  function TargetContainer(env: Env, stage: int): (r: Option<Fusion.Screen>)
    ensures r.None? <==> !env.hasScreen1 && !env.hasScreen2
    ensures stage >= Screen2Stage && env.hasScreen2 ==> r == Some(Fusion.Screen2)
    ensures stage < Screen2Stage && env.hasScreen1 ==> r == Some(Fusion.Screen1)
    ensures r == Some(Fusion.Screen1) ==> env.hasScreen1
    ensures r == Some(Fusion.Screen2) ==> env.hasScreen2
  {
    if stage >= Screen2Stage then
      if env.hasScreen2 then Some(Fusion.Screen2)
      else if env.hasScreen1 then Some(Fusion.Screen1)
      else None
    else
      if env.hasScreen1 then Some(Fusion.Screen1)
      else if env.hasScreen2 then Some(Fusion.Screen2)
      else None
  }

  /** Places a new piece of `stage` in its target container; fails without a
      prefab or without any container. */
  function SpawnBrainrot(env: Env, sc: Fusion.Scene, stage: int): (r: Option<Fusion.Scene>)
    requires Fusion.Valid(sc)
    ensures r.Some? <==> env.prefabAssigned && (env.hasScreen1 || env.hasScreen2)
    ensures r.Some? ==> Fusion.Valid(r.value) && Fusion.Population(r.value) == Fusion.Population(sc) + 1
    ensures r.Some? ==> r.value == Fusion.Instantiate(sc, stage, env.spriteCount, TargetContainer(env, stage).value)
  {
    if !env.prefabAssigned then None
    else if !env.hasScreen1 && !env.hasScreen2 then None
    else
      match TargetContainer(env, stage)
      case None => None
      case Some(screen) => Some(Fusion.Instantiate(sc, stage, env.spriteCount, screen))
  }

  /** The guards of a shop purchase, in the order the code tests them. */
  predicate ShopBuyAllowed(env: Env, cfg: Config, g: GameState, stage: int, price: real)
  {
    && stage >= 1
    && stage <= GetVisibleShopStageLimit(env, g)
    && g.money >= price
    && Population(g) < cfg.maxObjects
  }

  /** Buys a piece of `stage` for `price`: debit, spawn, and count the
      purchase; when the spawn fails the debit is refunded and nothing is
      counted. */
  function TryBuyBrainrotFromShop(env: Env, cfg: Config, g: GameState, stage: int, price: real): (r: Step)
    requires Valid(g)
    ensures Valid(r.state)
    ensures !ShopBuyAllowed(env, cfg, g, stage, price) ==> !r.ok
    ensures r.ok <==> ShopBuyAllowed(env, cfg, g, stage, price) && SpawnBrainrot(env, g.scene, stage).Some?
    ensures !r.ok ==> r.state == g
    ensures r.ok ==>
      && r.state.money == g.money - price
      && SP.PurchaseCount(r.state.shopCounts, stage) == SP.PurchaseCount(g.shopCounts, stage) + 1
      && (forall k | k != stage :: SP.PurchaseCount(r.state.shopCounts, k) == SP.PurchaseCount(g.shopCounts, k))
      && Population(r.state) == Population(g) + 1
      && r.state.(money := g.money, shopCounts := g.shopCounts, scene := g.scene) == g
    ensures r.ok ==> SpawnBrainrot(env, g.scene, stage).Some? && r.state.scene == SpawnBrainrot(env, g.scene, stage).value
  {
    if stage < 1 then Step(false, g)
    else if stage > GetVisibleShopStageLimit(env, g) then Step(false, g)
    else if g.money < price then Step(false, g)
    else if Population(g) >= cfg.maxObjects then Step(false, g)
    else
      var debited := g.(money := g.money - price);
      match SpawnBrainrot(env, debited.scene, stage)
      case None => Step(false, debited.(money := debited.money + price))
      case Some(sc) =>
        Step(true, debited.(scene := sc, shopCounts := SP.RegisterShopPurchase(debited.shopCounts, stage)))
  }

  /** Turns auto-spawn on with an interval of at least one second. */
  function EnableAutoSpawn(g: GameState, interval: real): (r: GameState)
    ensures r.autoSpawnEnabled
    ensures r.spawnInterval >= 1.0
    ensures interval >= 1.0 ==> r.spawnInterval == interval
    ensures interval < 1.0 ==> r.spawnInterval == 1.0
    ensures r.(autoSpawnEnabled := g.autoSpawnEnabled, spawnInterval := g.spawnInterval) == g
  {
    g.(autoSpawnEnabled := true, spawnInterval := MaxReal(1.0, interval))
  }

  /** Shortens the spawn interval by `reduction`, never below one second; a
      non-positive reduction changes nothing. */
  function ReduceSpawnInterval(g: GameState, reduction: real): (r: GameState)
    ensures reduction <= 0.0 ==> r == g
    ensures reduction > 0.0 ==> r.spawnInterval >= 1.0
    ensures reduction > 0.0 && g.spawnInterval > 1.0 ==> r.spawnInterval < g.spawnInterval
    ensures reduction > 0.0 && g.spawnInterval - reduction >= 1.0 ==> r.spawnInterval == g.spawnInterval - reduction
    ensures reduction > 0.0 && g.spawnInterval - reduction < 1.0 ==> r.spawnInterval == 1.0
    ensures r.(spawnInterval := g.spawnInterval) == g
  {
    if reduction <= 0.0 then g
    else g.(spawnInterval := MaxReal(1.0, g.spawnInterval - reduction))
  }

  /** Auto-spawn runs only with a prefab, auto-spawn enabled and the first
      world on screen. */
  predicate SpawnTimerRuns(env: Env, g: GameState)
  {
    env.prefabAssigned && g.autoSpawnEnabled && g.showingScreen1
  }

  /** One frame of `dt` seconds of the spawn timer. When the timer reaches the
      interval it restarts from zero and one stage-1 piece is spawned if the
      population is below the cap; `r.ok` tells whether a piece was spawned. */
  function Tick(env: Env, cfg: Config, g: GameState, dt: real): (r: Step)
    requires Valid(g)
    ensures Valid(r.state)
    ensures !SpawnTimerRuns(env, g) ==> !r.ok && r.state == g
    ensures SpawnTimerRuns(env, g) && g.spawnTimer + dt < g.spawnInterval ==>
      !r.ok && r.state == g.(spawnTimer := g.spawnTimer + dt)
    ensures SpawnTimerRuns(env, g) && g.spawnTimer + dt >= g.spawnInterval ==> r.state.spawnTimer == 0.0
    ensures Population(g) >= cfg.maxObjects ==> !r.ok
    ensures (SpawnTimerRuns(env, g) && g.spawnTimer + dt >= g.spawnInterval && Population(g) < cfg.maxObjects
             && (env.hasScreen1 || env.hasScreen2)) ==> r.ok
    ensures !r.ok ==> r.state.scene == g.scene
    ensures r.ok ==>
      && Population(r.state) == Population(g) + 1
      && TargetContainer(env, 1).Some?
      && r.state.scene == Fusion.Instantiate(g.scene, Fusion.InitialStage, env.spriteCount, TargetContainer(env, 1).value)
    ensures r.state.(spawnTimer := g.spawnTimer, scene := g.scene) == g
  {
    if !env.prefabAssigned || !g.autoSpawnEnabled || !g.showingScreen1 then Step(false, g)
    else
      var timer := g.spawnTimer + dt;
      if timer >= g.spawnInterval then
        var reset := g.(spawnTimer := 0.0);
        if Population(reset) < cfg.maxObjects then
          match SpawnBrainrot(env, reset.scene, 1)
          case None => Step(false, reset)
          case Some(sc) => Step(true, reset.(scene := sc))
        else Step(false, reset)
      else Step(false, g.(spawnTimer := timer))
  }

  /** Runs the spawn timer over a sequence of frames. */
  function RunTicks(env: Env, cfg: Config, g: GameState, dts: seq<real>): (r: GameState)
    requires Valid(g)
    ensures Valid(r)
    decreases |dts|
  {
    if dts == [] then g
    else RunTicks(env, cfg, Tick(env, cfg, g, dts[0]).state, dts[1..])
  }

  /** Auto-spawn alone never pushes the population past the cap, and adds at
      most one piece per frame. */
  lemma {:induction false} TicksRespectCap(env: Env, cfg: Config, g: GameState, dts: seq<real>)
    requires Valid(g)
    requires Population(g) <= cfg.maxObjects
    ensures Population(RunTicks(env, cfg, g, dts)) <= cfg.maxObjects
    ensures Population(RunTicks(env, cfg, g, dts)) <= Population(g) + |dts|
    decreases |dts|
  {
    if dts != [] {
      var next := Tick(env, cfg, g, dts[0]).state;
      TicksRespectCap(env, cfg, next, dts[1..]);
    }
  }

  // ---------------------------------------------------------------------------
  // Stage changes and registration

  /** Re-parents piece `id` to the second world when that container exists. */
  function MoveToScreen2(env: Env, g: GameState, id: Fusion.Id): (r: GameState)
    requires Valid(g)
    ensures Valid(r)
    ensures id in g.scene.objects && env.hasScreen2 ==>
      r.scene.objects == g.scene.objects[id := g.scene.objects[id].(screen := Some(Fusion.Screen2))]
    ensures !(id in g.scene.objects && env.hasScreen2) ==> r == g
    ensures r.(scene := g.scene) == g
    ensures r.scene.objects.Keys == g.scene.objects.Keys && r.scene.doomed == g.scene.doomed
  {
    if !env.hasScreen2 || id !in g.scene.objects then g
    else
      var b := g.scene.objects[id];
      g.(scene := g.scene.(objects := g.scene.objects[id := b.(screen := Some(Fusion.Screen2))]))
  }

  /** Re-parents piece `id` to `screen`. */
  function Reparent(g: GameState, id: Fusion.Id, screen: Fusion.Screen): (r: GameState)
    requires Valid(g)
    ensures Valid(r)
    ensures r.scene.objects.Keys == g.scene.objects.Keys
    ensures id in g.scene.objects ==> r.scene.objects[id] == g.scene.objects[id].(screen := Some(screen))
    ensures r.(scene := g.scene) == g
    ensures forall other | other in g.scene.objects && other != id :: r.scene.objects[other] == g.scene.objects[other]
  {
    if id !in g.scene.objects then g
    else g.(scene := g.scene.(objects := g.scene.objects[id := g.scene.objects[id].(screen := Some(screen))]))
  }

  /** Whether a piece sits under one of the world containers that exist. */
  predicate InScreenContainer(env: Env, b: Fusion.Brainrot): (r: bool)
    ensures b.screen.None? ==> !r
    ensures b.screen == Some(Fusion.Screen1) ==> (r <==> env.hasScreen1)
    ensures b.screen == Some(Fusion.Screen2) ==> (r <==> env.hasScreen2)
    ensures r ==> TargetContainer(env, b.stage).Some?
  {
    || (b.screen == Some(Fusion.Screen1) && env.hasScreen1)
    || (b.screen == Some(Fusion.Screen2) && env.hasScreen2)
  }

  /** Flips which world is on screen. */
  function ToggleWorld(g: GameState): (r: GameState)
    ensures r.showingScreen1 != g.showingScreen1
    ensures r.(showingScreen1 := g.showingScreen1) == g
  {
    g.(showingScreen1 := !g.showingScreen1)
  }

  /** Toggling twice returns to the same world. */
  lemma ToggleWorldTwice(g: GameState)
    ensures ToggleWorld(ToggleWorld(g)) == g
  {
  }

  /** Piece `id` now has stage `newStage`: the stage is tracked; from stage 11
      on the piece moves to the second world and, if that same call unlocks
      the world, the view switches to it. Below stage 11 the unlock is still
      tried, without a switch. A piece not in the scene is ignored. */
  function OnBrainrotStageChanged(env: Env, cfg: Config, g: GameState, id: Fusion.Id, newStage: int): (r: GameState)
    requires Valid(g)
    ensures Valid(r)
    ensures id !in g.scene.objects ==> r == g
    ensures id in g.scene.objects ==>
      && r.highestStage == TrackHighestStage(g, newStage).state.highestStage
      && r.changeWorldUnlocked == (g.changeWorldUnlocked || newStage > UnlockStage(cfg))
      && r.showingScreen1 == (g.showingScreen1 && !(newStage >= Screen2Stage && newStage > UnlockStage(cfg) && !g.changeWorldUnlocked))
      && r.scene.objects.Keys == g.scene.objects.Keys
      && (newStage >= Screen2Stage && env.hasScreen2 ==>
            r.scene.objects[id] == g.scene.objects[id].(screen := Some(Fusion.Screen2)))
      && (newStage < Screen2Stage || !env.hasScreen2 ==> r.scene == g.scene)
    ensures r.scene.objects.Keys == g.scene.objects.Keys && r.scene.doomed == g.scene.doomed
    ensures forall o | o in g.scene.objects && o != id :: r.scene.objects[o] == g.scene.objects[o]
    ensures r.(highestStage := g.highestStage, changeWorldUnlocked := g.changeWorldUnlocked,
               showingScreen1 := g.showingScreen1, scene := g.scene) == g
  {
    if id !in g.scene.objects then g
    else
      var tracked := TrackHighestStage(g, newStage).state;
      if newStage >= Screen2Stage then
        var moved := MoveToScreen2(env, tracked, id);
        var unlock := TryUnlockChangeWorldForStage(cfg, moved, newStage);
        if unlock.ok then AutoSwitchToScreen2(unlock.state) else unlock.state
      else
        TryUnlockChangeWorldForStage(cfg, tracked, newStage).state
  }

  /** A piece announces itself to the manager (as written): its stage is
      tracked and the unlock is tried; from stage 11 on it moves to the second
      world and the unlock is tried again, switching the view if that second
      try succeeds. Below stage 11 an unparented piece is parented to its
      target container. */
  function RegisterBrainrot(env: Env, cfg: Config, g: GameState, id: Fusion.Id): (r: GameState)
    requires Valid(g)
    ensures Valid(r)
    ensures r.scene.objects.Keys == g.scene.objects.Keys && r.scene.doomed == g.scene.doomed
    ensures forall o | o in g.scene.objects && o != id :: r.scene.objects[o] == g.scene.objects[o]
    ensures r.(highestStage := g.highestStage, changeWorldUnlocked := g.changeWorldUnlocked,
               showingScreen1 := g.showingScreen1, scene := g.scene) == g
    ensures id !in g.scene.objects ==> r == g
    ensures id in g.scene.objects ==>
      var stage := g.scene.objects[id].stage;
      && r.highestStage == TrackHighestStage(g, stage).state.highestStage
      && r.changeWorldUnlocked == (g.changeWorldUnlocked || stage > UnlockStage(cfg))
    ensures id in g.scene.objects ==>
      var b := g.scene.objects[id];
      && (b.stage >= Screen2Stage && env.hasScreen2 ==> r.scene.objects[id] == b.(screen := Some(Fusion.Screen2)))
      && (b.stage >= Screen2Stage && !env.hasScreen2 ==> r.scene == g.scene)
      && (b.stage < Screen2Stage && !InScreenContainer(env, b) && TargetContainer(env, b.stage).Some? ==>
            r.scene.objects[id] == b.(screen := Some(TargetContainer(env, b.stage).value)))
      && (b.stage < Screen2Stage && (InScreenContainer(env, b) || TargetContainer(env, b.stage).None?) ==>
            r.scene == g.scene)
  {
    if id !in g.scene.objects then g
    else
      var b := g.scene.objects[id];
      var tracked := TrackHighestStage(g, b.stage).state;
      var first := TryUnlockChangeWorldForStage(cfg, tracked, b.stage).state;
      if b.stage >= Screen2Stage then
        var moved := MoveToScreen2(env, first, id);
        var second := TryUnlockChangeWorldForStage(cfg, moved, b.stage);
        if second.ok then AutoSwitchToScreen2(second.state) else second.state
      else if !InScreenContainer(env, b) then
        match TargetContainer(env, b.stage)
        case None => first
        case Some(screen) => Reparent(first, id, screen)
      else first
  }

  // Finding: the auto-switch in RegisterBrainrot can never happen. The first
  // unlock attempt already consumes the one-shot unlock, so the second attempt
  // always returns false.

  /** As written, registering a piece never switches the view. */
  lemma RegisterBrainrotNeverSwitches(env: Env, cfg: Config, g: GameState, id: Fusion.Id)
    requires Valid(g)
    ensures RegisterBrainrot(env, cfg, g, id).showingScreen1 == g.showingScreen1
  {
    if id in g.scene.objects {
      var b := g.scene.objects[id];
      var tracked := TrackHighestStage(g, b.stage).state;
      var first := TryUnlockChangeWorldForStage(cfg, tracked, b.stage).state;
      assert b.stage > UnlockStage(cfg) ==> first.changeWorldUnlocked;
    }
  }

  /** Registration as evidently intended, mirroring `OnBrainrotStageChanged`:
      from stage 11 on the unlock is tried once, after the move, so the call
      that unlocks the world also switches the view to it. */
  function RegisterBrainrotSwitching(env: Env, cfg: Config, g: GameState, id: Fusion.Id): (r: GameState)
    requires Valid(g)
    ensures Valid(r)
    ensures id !in g.scene.objects ==> r == g
    ensures id in g.scene.objects ==>
      var stage := g.scene.objects[id].stage;
      && r.highestStage == TrackHighestStage(g, stage).state.highestStage
      && r.changeWorldUnlocked == (g.changeWorldUnlocked || stage > UnlockStage(cfg))
      && (stage >= Screen2Stage && stage > UnlockStage(cfg) && !g.changeWorldUnlocked ==> !r.showingScreen1)
      && (!(stage >= Screen2Stage && stage > UnlockStage(cfg) && !g.changeWorldUnlocked) ==> r.showingScreen1 == g.showingScreen1)
    ensures r.money == g.money && r.shopCounts == g.shopCounts
  {
    if id !in g.scene.objects then g
    else
      var b := g.scene.objects[id];
      var tracked := TrackHighestStage(g, b.stage).state;
      if b.stage >= Screen2Stage then
        var moved := MoveToScreen2(env, tracked, id);
        var unlock := TryUnlockChangeWorldForStage(cfg, moved, b.stage);
        if unlock.ok then AutoSwitchToScreen2(unlock.state) else unlock.state
      else
        var first := TryUnlockChangeWorldForStage(cfg, tracked, b.stage).state;
        if !InScreenContainer(env, b) then
          match TargetContainer(env, b.stage)
          case None => first
          case Some(screen) => Reparent(first, id, screen)
        else first
  }

  /** With the defaults, a locked world and a stage-12 piece: the written
      registration unlocks the world but stays on the first screen, the
      intended one switches to the second. */
  lemma RegisterStageTwelveOnLockedWorld(env: Env, g: GameState, id: Fusion.Id)
    requires Valid(g) && !g.changeWorldUnlocked && g.showingScreen1
    requires id in g.scene.objects && g.scene.objects[id].stage == 12
    ensures RegisterBrainrot(env, Defaults, g, id).changeWorldUnlocked
    ensures RegisterBrainrot(env, Defaults, g, id).showingScreen1
    ensures !RegisterBrainrotSwitching(env, Defaults, g, id).showingScreen1
  {
    RegisterBrainrotNeverSwitches(env, Defaults, g, id);
  }

  // Finding: routing and unlock disagree at stage 11. A stage-11 piece is sent
  // to the second world (stage >= 11) while the world only unlocks above the
  // unlock stage (default 11). The piece lands in a container that is hidden,
  // and the player has no control to show it.

  /** With the defaults, a piece reaching stage 11 on a locked world is moved to
      the second world while the world stays locked and hidden. */
  lemma StageElevenHiddenOnLockedWorld(env: Env, g: GameState, id: Fusion.Id)
    requires Valid(g) && env.hasScreen2
    requires !g.changeWorldUnlocked && g.showingScreen1
    requires id in g.scene.objects
    ensures var r := OnBrainrotStageChanged(env, Defaults, g, id, 11);
      && r.scene.objects[id].screen == Some(Fusion.Screen2)
      && !r.changeWorldUnlocked
      && r.showingScreen1
  {
  }

  /** The second-world threshold aligned with the unlock: a piece goes there
      only once its stage unlocks that world. */
  predicate GoesToScreen2Aligned(cfg: Config, stage: int)
  {
    stage > UnlockStage(cfg)
  }

  /** The stage change with routing and unlock aligned. */
  function OnBrainrotStageChangedAligned(env: Env, cfg: Config, g: GameState, id: Fusion.Id, newStage: int): (r: GameState)
    requires Valid(g)
    ensures Valid(r)
    ensures id !in g.scene.objects ==> r == g
    ensures id in g.scene.objects ==>
      && r.highestStage == TrackHighestStage(g, newStage).state.highestStage
      && r.changeWorldUnlocked == (g.changeWorldUnlocked || newStage > UnlockStage(cfg))
      && r.scene.objects.Keys == g.scene.objects.Keys
      && (r.scene.objects[id].screen == Some(Fusion.Screen2) && g.scene.objects[id].screen != Some(Fusion.Screen2) ==>
            r.changeWorldUnlocked)
  {
    if id !in g.scene.objects then g
    else
      var tracked := TrackHighestStage(g, newStage).state;
      if GoesToScreen2Aligned(cfg, newStage) then
        var moved := MoveToScreen2(env, tracked, id);
        var unlock := TryUnlockChangeWorldForStage(cfg, moved, newStage);
        if unlock.ok then AutoSwitchToScreen2(unlock.state) else unlock.state
      else
        TryUnlockChangeWorldForStage(cfg, tracked, newStage).state
  }

  /** With routing aligned, the stage-11 piece of the finding stays in the
      first world. */
  lemma AlignedStageElevenStaysVisible(env: Env, g: GameState, id: Fusion.Id)
    requires Valid(g) && env.hasScreen2
    requires !g.changeWorldUnlocked && g.showingScreen1
    requires id in g.scene.objects && g.scene.objects[id].screen == Some(Fusion.Screen1)
    ensures OnBrainrotStageChangedAligned(env, Defaults, g, id, 11).scene.objects[id].screen == Some(Fusion.Screen1)
  {
  }

  // ---------------------------------------------------------------------------
  // Save and load

  /** The logical fields of a save (piece positions and upgrade data aside). */
  datatype SaveData = SaveData(
    money: real,
    highestStage: int,
    autoSpawnEnabled: bool,
    spawnInterval: real,
    showingScreen1: bool,
    globalMoneyMultiplier: real,
    globalAutoClickReduction: real,
    shopPurchases: Option<seq<SP.ShopPurchaseSave>>)

  /** Applies a save, if there is one: fields are copied, the highest stage is
      raised to at least 1, the spawn interval to at least one second, purchase
      records are filtered, and the world unlock is tried for the loaded
      highest stage (without switching the view). */
  function LoadState(cfg: Config, g: GameState, data: Option<SaveData>): (r: GameState)
    ensures data.None? ==> r == g
    ensures data.Some? ==>
      var d := data.value;
      && r.money == d.money
      && r.highestStage == Max(1, d.highestStage)
      && r.spawnInterval == MaxReal(1.0, d.spawnInterval)
      && r.autoSpawnEnabled == d.autoSpawnEnabled
      && r.showingScreen1 == d.showingScreen1
      && r.moneyMultiplier == d.globalMoneyMultiplier
      && r.autoClickReduction == d.globalAutoClickReduction
      && r.shopCounts == SP.RestoreShopPurchases(d.shopPurchases)
      && r.changeWorldUnlocked == (g.changeWorldUnlocked || r.highestStage > UnlockStage(cfg))
      && r.spawnTimer == g.spawnTimer && r.scene == g.scene
    ensures Valid(g) ==> Valid(r)
  {
    match data
    case None => g
    case Some(d) =>
      var loaded := g.(
        money := d.money,
        highestStage := Max(1, d.highestStage),
        autoSpawnEnabled := d.autoSpawnEnabled,
        spawnInterval := MaxReal(1.0, d.spawnInterval),
        showingScreen1 := d.showingScreen1,
        moneyMultiplier := d.globalMoneyMultiplier,
        autoClickReduction := d.globalAutoClickReduction,
        shopCounts := SP.RestoreShopPurchases(d.shopPurchases));
      TryUnlockChangeWorldForStage(cfg, loaded, loaded.highestStage).state
  }

  /** `d` records exactly the saved fields of `g`. */
  ghost predicate SnapshotOf(d: SaveData, g: GameState)
  {
    && d.money == g.money
    && d.highestStage == g.highestStage
    && d.autoSpawnEnabled == g.autoSpawnEnabled
    && d.spawnInterval == g.spawnInterval
    && d.showingScreen1 == g.showingScreen1
    && d.globalMoneyMultiplier == g.moneyMultiplier
    && d.globalAutoClickReduction == g.autoClickReduction
    && d.shopPurchases.Some?
    && SP.ListsExactly(d.shopPurchases.value, SP.Filter(g.shopCounts))
  }

  /** Gathers the saved fields of the manager. */
  method SaveState(g: GameState) returns (d: SaveData)
    ensures SnapshotOf(d, g)
  {
    var purchases := SP.CollectShopPurchases(g.shopCounts);
    d := SaveData(g.money, g.highestStage, g.autoSpawnEnabled, g.spawnInterval, g.showingScreen1,
                  g.moneyMultiplier, g.autoClickReduction, Some(purchases));
  }

  /** Loading a save of a well-formed state (spawn interval at least one
      second) into any manager restores every saved field exactly. */
  lemma SaveLoadRoundTrip(cfg: Config, g: GameState, h: GameState, d: SaveData)
    requires Valid(g) && g.spawnInterval >= 1.0
    requires SnapshotOf(d, g)
    ensures var r := LoadState(cfg, h, Some(d));
      && r.money == g.money
      && r.highestStage == g.highestStage
      && r.autoSpawnEnabled == g.autoSpawnEnabled
      && r.spawnInterval == g.spawnInterval
      && r.showingScreen1 == g.showingScreen1
      && r.moneyMultiplier == g.moneyMultiplier
      && r.autoClickReduction == g.autoClickReduction
      && r.shopCounts == g.shopCounts
  {
    SP.CollectThenRestoreIsIdentity(d.shopPurchases.value, g.shopCounts);
  }
}

=== FILE: numeric.dfy ===
/** The few numeric helpers of the game engine that the economy relies on,
    stated over Dafny's exact `int` and `real`:
    - `Max`, `Clamp`: Unity's `Mathf.Max` / `Mathf.Clamp` on integers and floats;
    - `CeilToInt`: `Mathf.CeilToInt`;
    - `RoundToInt`: `Mathf.RoundToInt`, which rounds halves to the even neighbour;
    - `Pow`, `PowInt`, `Pow2`: `Mathf.Pow` at the integral exponents the game uses. */
module Numeric {

  function Max(a: int, b: int): (r: int)
    ensures r >= a && r >= b
    ensures r == a || r == b
  {
    if a > b then a else b
  }

  function MaxReal(a: real, b: real): (r: real)
    ensures r >= a && r >= b
    ensures r == a || r == b
  {
    if a > b then a else b
  }

  function Min(a: int, b: int): (r: int)
    ensures r <= a && r <= b
    ensures r == a || r == b
  {
    if a < b then a else b
  }

  /** `Mathf.Clamp(value, lo, hi)`: the lower bound is checked first, so with
      `lo > hi` a value at or above `lo` comes out as `hi`. */
  function Clamp(value: int, lo: int, hi: int): (r: int)
    ensures lo <= hi ==> lo <= r <= hi
    ensures lo <= value <= hi ==> r == value
  {
    if value < lo then lo else if value > hi then hi else value
  }

  /** The least integer not below `x`. */
  function CeilToInt(x: real): (r: int)
    ensures x <= r as real < x + 1.0
  {
    -((-x).Floor)
  }

  /** Rounds to the nearest integer; a value exactly halfway between two
      integers goes to the even one (the rounding of `Math.Round`). */
  function RoundToInt(x: real): (r: int)
    ensures x - 0.5 <= r as real <= x + 0.5
    ensures r as real == x + 0.5 ==> r % 2 == 0
    ensures r as real == x - 0.5 ==> r % 2 == 0
  {
    var f := x.Floor;
    var d := x - f as real;
    if d < 0.5 then f
    else if d > 0.5 then f + 1
    else if f % 2 == 0 then f
    else f + 1
  }

  lemma RoundToIntOfInteger(n: int)
    ensures RoundToInt(n as real) == n
  {
    assert (n as real).Floor == n;
  }

  /** `b` raised to the natural power `n`. */
  function Pow(b: real, n: nat): (r: real)
    ensures b > 0.0 ==> r > 0.0
  {
    if n == 0 then 1.0 else b * Pow(b, n - 1)
  }

  function PowInt(b: int, n: nat): int
  {
    if n == 0 then 1 else b * PowInt(b, n - 1)
  }

  lemma {:induction false} PowOfInt(b: int, n: nat)
    ensures Pow(b as real, n) == PowInt(b, n) as real
  {
    if n > 0 {
      PowOfInt(b, n - 1);
    }
  }

  lemma {:induction false} PowIntPositive(b: int, n: nat)
    requires b > 0
    ensures PowInt(b, n) > 0
  {
    if n > 0 {
      PowIntPositive(b, n - 1);
    }
  }

  /** With an integer base of at least 2, a larger exponent gives a strictly
      larger power. */
  lemma {:induction false} PowIntStrictlyIncreasing(b: int, n: nat, n': nat)
    requires b >= 2 && n < n'
    ensures PowInt(b, n) < PowInt(b, n')
    decreases n'
  {
    PowIntPositive(b, n' - 1);
    if n < n' - 1 {
      PowIntStrictlyIncreasing(b, n, n' - 1);
    }
  }

  /** `2` raised to any integer power, negative exponents giving fractions, as
      `Mathf.Pow(2f, e)` does. */
  function Pow2(e: int): (r: real)
    ensures r > 0.0
  {
    if e >= 0 then Pow(2.0, e) else 1.0 / Pow(2.0, -e)
  }

  /** Each step up in the exponent doubles the power, on both sides of zero. */
  lemma Pow2Step(e: int)
    ensures Pow2(e + 1) == 2.0 * Pow2(e)
  {
    if e < -1 {
      var p := Pow(2.0, -e - 1);
      assert Pow(2.0, -e) == 2.0 * p;
      assert Pow2(e + 1) == 1.0 / p;
      assert Pow2(e) == 1.0 / (2.0 * p);
    }
  }
}

=== FILE: shop_panel.dfy ===
/** The stage shop (Assets/Scripts/ShopPanelController.cs): one row per stage
    the piece prefab has sprites for, the price of each stage, the buy
    button, and the refresh that hides rows above the visible limit, numbers
    the visible ones, and labels each with its price or as locked.

    Row layout, colours, icons and canvas ordering are presentation and are
    not modelled; a row is its stage, and its refreshed view is what a player
    can read off it. */
module ShopPanel {
  import opened Wrappers
  import opened Numeric
  import GM = GameManager

  datatype ShopConfig = ShopConfig(basePrice: int, priceMultiplier: real)

  const Defaults: ShopConfig := ShopConfig(25, 2.0)

  /** The price of `stage`: `basePrice * priceMultiplier^(stage - 1)`, rounded to
      the nearest integer with halves to even. */
  function GetStagePrice(shop: ShopConfig, stage: int): (r: int)
    requires stage >= 1
    ensures shop.basePrice >= 0 && shop.priceMultiplier > 0.0 ==> r >= 0
  {
    RoundToInt(shop.basePrice as real * Pow(shop.priceMultiplier, stage - 1))
  }

  /** The price is the exact scaled base price, off by at most one half. */
  lemma PriceWithinHalf(shop: ShopConfig, stage: int)
    requires stage >= 1
    ensures shop.basePrice as real * Pow(shop.priceMultiplier, stage - 1) - 0.5 <= GetStagePrice(shop, stage) as real
    ensures GetStagePrice(shop, stage) as real <= shop.basePrice as real * Pow(shop.priceMultiplier, stage - 1) + 0.5
  {
  }

  /** The first stage costs exactly the base price. */
  lemma FirstStageCostsBase(shop: ShopConfig)
    ensures GetStagePrice(shop, 1) == shop.basePrice
  {
    RoundToIntOfInteger(shop.basePrice);
  }

  /** With a whole multiplier `k` there is nothing to round:
      the price is `basePrice * k^(stage - 1)`. */
  lemma PriceWithWholeMultiplier(shop: ShopConfig, k: int, stage: int)
    requires stage >= 1 && shop.priceMultiplier == k as real
    ensures GetStagePrice(shop, stage) == shop.basePrice * PowInt(k, stage - 1)
  {
    PowOfInt(k, stage - 1);
    RoundToIntOfInteger(shop.basePrice * PowInt(k, stage - 1));
  }

  /** With the defaults stage `s` costs `25 * 2^(s - 1)`: 25, 50, 100, ... */
  lemma DefaultPrices(stage: int)
    requires stage >= 1
    ensures GetStagePrice(Defaults, stage) == 25 * PowInt(2, stage - 1)
  {
    PriceWithWholeMultiplier(Defaults, 2, stage);
  }

  /** With a positive base and a whole multiplier of at least 2, a higher stage
      always costs strictly more. */
  lemma PriceStrictlyIncreasing(shop: ShopConfig, k: int, stage: int, stage': int)
    requires shop.basePrice > 0 && k >= 2 && shop.priceMultiplier == k as real
    requires 1 <= stage < stage'
    ensures GetStagePrice(shop, stage) < GetStagePrice(shop, stage')
  {
    PriceWithWholeMultiplier(shop, k, stage);
    PriceWithWholeMultiplier(shop, k, stage');
    PowIntStrictlyIncreasing(k, stage - 1, stage' - 1);
    ScaleStrict(shop.basePrice, PowInt(k, stage - 1), PowInt(k, stage' - 1));
  }

  lemma ScaleStrict(b: int, x: int, y: int)
    requires b > 0 && x < y
    ensures b * x < b * y
  {
    assert b * y - b * x == b * (y - x);
  }

  /** The buy button of the row for `stage`. Without a manager it does nothing;
      otherwise the manager is asked to sell `stage` at the row's price. */
  function TryBuyStage(shop: ShopConfig, env: GM.Env, cfg: GM.Config, manager: Option<GM.GameState>, stage: int): (r: Option<GM.Step>)
    requires stage >= 1
    requires manager.Some? ==> GM.Valid(manager.value)
    ensures r.None? <==> manager.None?
    ensures r.Some? ==> GM.Valid(r.value.state)
    ensures r.Some? && r.value.ok ==>
      && r.value.state.money == manager.value.money - GetStagePrice(shop, stage) as real
      && manager.value.money >= GetStagePrice(shop, stage) as real
      && stage <= GM.GetVisibleShopStageLimit(env, manager.value)
    ensures r.Some? && !r.value.ok ==> r.value.state == manager.value
    ensures manager.Some? ==>
      (r.value.ok <==> GM.ShopBuyAllowed(env, cfg, manager.value, stage, GetStagePrice(shop, stage) as real)
                       && GM.SpawnBrainrot(env, manager.value.scene, stage).Some?)
    ensures r.Some? && r.value.ok ==>
      GM.SpawnBrainrot(env, manager.value.scene, stage).Some?
      && r.value.state.scene == GM.SpawnBrainrot(env, manager.value.scene, stage).value
  {
    match manager
    case None => None
    case Some(g) =>
      var price := GetStagePrice(shop, stage);
      Some(GM.TryBuyBrainrotFromShop(env, cfg, g, stage, price as real))
  }

  /** A row of the shop. */
  datatype ShopEntry = ShopEntry(stage: int)

  /** Rows built by `RebuildEntries`: row `i` sells stage `i + 1`. */
  ghost predicate WellBuilt(entries: seq<ShopEntry>)
  {
    forall i | 0 <= i < |entries| :: entries[i].stage == i + 1
  }

  /** The number of rows the shop should have: the manager's stage count, at
      least 1, or 1 without a manager. */
  function RowCount(env: GM.Env, hasManager: bool): (r: int)
    ensures r >= 1
    ensures hasManager ==> r == GM.MaxBrainrotStage(env)
    ensures !hasManager ==> r == 1
  {
    Max(1, if hasManager then GM.MaxBrainrotStage(env) else 1)
  }

  /** Rebuilds the rows unless there are already as many as stages: the old
      rows are dropped and one row per stage from 1 up is created. */
  method RebuildEntries(env: GM.Env, hasManager: bool, entries: seq<ShopEntry>) returns (rebuilt: seq<ShopEntry>)
    ensures |entries| == RowCount(env, hasManager) ==> rebuilt == entries
    ensures |rebuilt| == RowCount(env, hasManager)
    ensures |entries| != RowCount(env, hasManager) ==> WellBuilt(rebuilt)
    ensures WellBuilt(entries) ==> WellBuilt(rebuilt)
  {
    var maxStage := RowCount(env, hasManager);
    if |entries| == maxStage {
      return entries;
    }
    rebuilt := [];
    var stage := 1;
    while stage <= maxStage
      invariant 1 <= stage <= maxStage + 1
      invariant |rebuilt| == stage - 1
      invariant WellBuilt(rebuilt)
    {
      rebuilt := rebuilt + [ShopEntry(stage)];
      stage := stage + 1;
    }
  }

  /** What a visible row shows under its title. */
  datatype PriceLabel = Buy(price: int) | Locked

  /** A row after a refresh: hidden, or shown in position `slot` (0 on top),
      with its button enabled when `unlocked`. */
  datatype EntryView = Hidden | Shown(slot: nat, unlocked: bool, caption: PriceLabel)

  /** The number of rows among `entries` at or below the visible limit. */
  function VisibleCount(entries: seq<ShopEntry>, limit: int): (n: nat)
    ensures n <= |entries|
    decreases |entries|
  {
    if entries == [] then 0
    else VisibleCount(entries[..|entries| - 1], limit) + (if entries[|entries| - 1].stage <= limit then 1 else 0)
  }

  /** The view of one row, given the limit, the highest stage and its slot. */
  function ViewOf(shop: ShopConfig, e: ShopEntry, limit: int, highest: int, slot: nat): (v: EntryView)
    requires e.stage >= 1
    ensures v.Shown? <==> e.stage <= limit
    ensures v.Shown? ==> v.slot == slot && (v.unlocked <==> e.stage <= highest)
    ensures v.Shown? && v.unlocked ==> v.caption == Buy(GetStagePrice(shop, e.stage))
    ensures v.Shown? && !v.unlocked ==> v.caption == Locked
  {
    if e.stage > limit then Hidden
    else if e.stage <= highest then Shown(slot, true, Buy(GetStagePrice(shop, e.stage)))
    else Shown(slot, false, Locked)
  }

  /** Every row's stage is at least 1, as `RebuildEntries` creates them. */
  ghost predicate StagesPositive(entries: seq<ShopEntry>)
  {
    forall i | 0 <= i < |entries| :: entries[i].stage >= 1
  }

  /** The highest stage and visible limit the refresh reads; 1 and 1 without
      a manager. */
  function RefreshBounds(env: GM.Env, manager: Option<GM.GameState>): (r: (int, int))
    ensures manager.None? ==> r == (1, 1)
    ensures manager.Some? ==> r == (manager.value.highestStage, GM.GetVisibleShopStageLimit(env, manager.value))
  {
    match manager
    case None => (1, 1)
    case Some(g) => (g.highestStage, GM.GetVisibleShopStageLimit(env, g))
  }

  /** Refreshes every row: rows above the visible limit are hidden; visible
      rows are numbered from the top in order, enabled when their stage has
      been reached, and labelled with their price or as locked. */
  method RefreshEntries(shop: ShopConfig, env: GM.Env, manager: Option<GM.GameState>, entries: seq<ShopEntry>)
    returns (views: seq<EntryView>)
    requires StagesPositive(entries)
    ensures |views| == |entries|
    ensures forall i | 0 <= i < |entries| ::
      views[i] == ViewOf(shop, entries[i], RefreshBounds(env, manager).1, RefreshBounds(env, manager).0, VisibleCount(entries[..i], RefreshBounds(env, manager).1))
  {
    if |entries| == 0 {
      return [];
    }
    var (highest, limit) := RefreshBounds(env, manager);
    views := [];
    var visibleIndex := 0;
    var i := 0;
    while i < |entries|
      invariant 0 <= i <= |entries|
      invariant StagesPositive(entries[..i])
      invariant visibleIndex == VisibleCount(entries[..i], limit)
      invariant views == ExpectedViews(shop, entries[..i], limit, highest)
    {
      var e := entries[i];
      VisibleCountExtend(entries, i, limit);
      ExpectedViewsExtend(shop, entries, i, limit, highest);
      views := views + [ViewOf(shop, e, limit, highest, visibleIndex)];
      if e.stage <= limit {
        visibleIndex := visibleIndex + 1;
      }
      i := i + 1;
    }
    assert entries[..i] == entries;
    forall j | 0 <= j < |entries|
      ensures views[j] == ViewOf(shop, entries[j], limit, highest, VisibleCount(entries[..j], limit))
    {
      ExpectedViewsAt(shop, entries, limit, highest, j);
    }
  }

  /** The views a refresh gives `entries`, built row by row: each row's view
      takes as its slot the number of visible rows before it. */
  function ExpectedViews(shop: ShopConfig, entries: seq<ShopEntry>, limit: int, highest: int): (vs: seq<EntryView>)
    requires StagesPositive(entries)
    ensures |vs| == |entries|
    decreases |entries|
  {
    if entries == [] then []
    else
      var prefix := entries[..|entries| - 1];
      assert forall i | 0 <= i < |prefix| :: prefix[i] == entries[i];
      ExpectedViews(shop, prefix, limit, highest)
        + [ViewOf(shop, entries[|entries| - 1], limit, highest, VisibleCount(prefix, limit))]
  }

  /** The expected views of one more row of the prefix add that row's view. */
  lemma ExpectedViewsExtend(shop: ShopConfig, entries: seq<ShopEntry>, i: int, limit: int, highest: int)
    requires StagesPositive(entries) && 0 <= i < |entries|
    ensures StagesPositive(entries[..i]) && StagesPositive(entries[..i + 1])
    ensures ExpectedViews(shop, entries[..i + 1], limit, highest)
      == ExpectedViews(shop, entries[..i], limit, highest)
         + [ViewOf(shop, entries[i], limit, highest, VisibleCount(entries[..i], limit))]
  {
    assert entries[..i + 1][..i] == entries[..i];
  }

  /** Row `i` of the expected views is the view of row `i` in the slot that
      counts the visible rows before it. */
  lemma {:induction false} ExpectedViewsAt(shop: ShopConfig, entries: seq<ShopEntry>, limit: int, highest: int, i: int)
    requires StagesPositive(entries) && 0 <= i < |entries|
    ensures ExpectedViews(shop, entries, limit, highest)[i] == ViewOf(shop, entries[i], limit, highest, VisibleCount(entries[..i], limit))
    decreases |entries|
  {
    var prefix := entries[..|entries| - 1];
    assert forall j | 0 <= j < |prefix| :: prefix[j] == entries[j];
    if i < |prefix| {
      ExpectedViewsAt(shop, prefix, limit, highest, i);
      assert entries[..i] == prefix[..i];
    }
  }

  /** Counting one more row of the prefix adds one exactly when that row is
      within the limit. */
  lemma VisibleCountExtend(entries: seq<ShopEntry>, i: int, limit: int)
    requires 0 <= i < |entries|
    ensures VisibleCount(entries[..i + 1], limit)
      == VisibleCount(entries[..i], limit) + (if entries[i].stage <= limit then 1 else 0)
  {
    assert entries[..i + 1][..i] == entries[..i];
  }

  /** With the rows as built, the visible rows are exactly the first
      `limit` ones, and each sits in the slot of its own index. */
  lemma {:induction false} VisibleCountOfWellBuilt(entries: seq<ShopEntry>, limit: int)
    requires WellBuilt(entries)
    ensures VisibleCount(entries, limit) == Min(|entries|, Max(0, limit))
    decreases |entries|
  {
    if entries != [] {
      var prefix := entries[..|entries| - 1];
      assert WellBuilt(prefix) by {
        forall i | 0 <= i < |prefix| ensures prefix[i].stage == i + 1 {
          assert prefix[i] == entries[i];
        }
      }
      VisibleCountOfWellBuilt(prefix, limit);
    }
  }

  /** With a manager in a valid state, every visible row is unlocked and shows
      its price: the visible limit never exceeds the highest stage reached. */
  lemma VisibleRowsAreUnlocked(shop: ShopConfig, env: GM.Env, g: GM.GameState, e: ShopEntry, slot: nat)
    requires GM.Valid(g) && e.stage >= 1
    requires ViewOf(shop, e, GM.GetVisibleShopStageLimit(env, g), g.highestStage, slot).Shown?
    ensures ViewOf(shop, e, GM.GetVisibleShopStageLimit(env, g), g.highestStage, slot).unlocked
    ensures ViewOf(shop, e, GM.GetVisibleShopStageLimit(env, g), g.highestStage, slot).caption == Buy(GetStagePrice(shop, e.stage))
  {
  }

  /** The price a visible row shows is exactly what its button charges when
      the purchase goes through. */
  lemma ShownPriceIsCharged(shop: ShopConfig, env: GM.Env, cfg: GM.Config, g: GM.GameState, e: ShopEntry, slot: nat)
    requires GM.Valid(g) && e.stage >= 1
    ensures var v := ViewOf(shop, e, GM.GetVisibleShopStageLimit(env, g), g.highestStage, slot);
      var r := TryBuyStage(shop, env, cfg, Some(g), e.stage).value;
      v.Shown? && v.caption.Buy? && r.ok ==> r.state.money == g.money - v.caption.price as real
  {
  }
}

=== FILE: shop_purchases.dfy ===
/** The per-stage shop purchase counts kept by GameManager
    (Assets/Scripts/GameManager.cs): a map from stage to the number of times
    that stage was bought from the shop, its lookup and increment, and its
    save form: a list of (stage, count) records written by
    `CollectShopPurchases` and read back by `RestoreShopPurchases`. Both
    directions drop any record whose stage or count is below 1. */
module ShopPurchases {
  import opened Wrappers

  /** One saved record of the purchase counts. */
  datatype ShopPurchaseSave = ShopPurchaseSave(stage: int, count: int)

  /** Every recorded stage and every count is at least 1. */
  ghost predicate ValidCounts(m: map<int, int>)
  {
    forall k | k in m :: k >= 1 && m[k] >= 1
  }

  /** A record the save code keeps rather than skips. */
  predicate Kept(e: ShopPurchaseSave)
  {
    e.stage >= 1 && e.count >= 1
  }

  /** The number of purchases of `stage`: 0 for a stage below 1 or never bought. */
  function PurchaseCount(m: map<int, int>, stage: int): (r: int)
    ensures stage < 1 || stage !in m ==> r == 0
    ensures stage >= 1 && stage in m ==> r == m[stage]
    ensures ValidCounts(m) ==> r >= 0
  {
    if stage < 1 then 0
    else if stage in m then m[stage]
    else 0
  }

  /** Records one purchase of `stage`; a stage below 1 is ignored. */
  function RegisterShopPurchase(m: map<int, int>, stage: int): (r: map<int, int>)
    ensures stage < 1 ==> r == m
    ensures stage >= 1 ==> PurchaseCount(r, stage) == PurchaseCount(m, stage) + 1
    ensures forall k | k != stage :: PurchaseCount(r, k) == PurchaseCount(m, k)
    ensures stage >= 1 ==> r.Keys == m.Keys + {stage}
    ensures ValidCounts(m) ==> ValidCounts(r)
  {
    if stage < 1 then m
    else if stage in m then m[stage := m[stage] + 1]
    else m[stage := 1]
  }

  /** The entries of `m` that survive a save: stage and count both at least 1. */
  function Filter(m: map<int, int>): (r: map<int, int>)
    ensures ValidCounts(r)
    ensures forall k | k in m && k >= 1 && m[k] >= 1 :: k in r && r[k] == m[k]
    ensures forall k | k in r :: k in m
  {
    map k | k in m && k >= 1 && m[k] >= 1 :: m[k]
  }

  /** Well-formed counts lose nothing to the filter. */
  lemma FilterKeepsValidCounts(m: map<int, int>)
    requires ValidCounts(m)
    ensures Filter(m) == m
  {
    assert Filter(m).Keys == m.Keys;
  }

  /** `list` holds each entry of `m` exactly once, and nothing else. */
  ghost predicate ListsExactly(list: seq<ShopPurchaseSave>, m: map<int, int>)
  {
    && (forall i | 0 <= i < |list| :: list[i].stage in m && m[list[i].stage] == list[i].count)
    && (forall k | k in m :: exists i | 0 <= i < |list| :: list[i].stage == k)
    && (forall i, j | 0 <= i < j < |list| :: list[i].stage != list[j].stage)
  }

  /** Writes the counts out as records, one per kept entry, in whatever order
      the map yields its keys. */
  method CollectShopPurchases(counts: map<int, int>) returns (list: seq<ShopPurchaseSave>)
    ensures ListsExactly(list, Filter(counts))
    ensures forall i | 0 <= i < |list| :: Kept(list[i])
  {
    ghost var kept := Filter(counts);
    list := [];
    var rest := counts.Keys;
    while |rest| > 0
      invariant rest <= counts.Keys
      invariant forall i | 0 <= i < |list| ::
        list[i].stage in kept && kept[list[i].stage] == list[i].count && list[i].stage !in rest
      invariant forall k | k in kept && k !in rest :: exists i | 0 <= i < |list| :: list[i].stage == k
      invariant forall i, j | 0 <= i < j < |list| :: list[i].stage != list[j].stage
      decreases rest
    {
      var k :| k in rest;
      rest := rest - {k};
      if k >= 1 && counts[k] >= 1 {
        ghost var before := list;
        list := list + [ShopPurchaseSave(k, counts[k])];
        assert forall i | 0 <= i < |before| :: list[i] == before[i];
        assert list[|list| - 1].stage == k;
      }
    }
  }

  /** Reads records back in order; a later record for a stage overwrites an
      earlier one, and records with stage or count below 1 are skipped. */
  function RestoreFrom(list: seq<ShopPurchaseSave>): (m: map<int, int>)
    ensures ValidCounts(m)
    ensures forall k | k in m :: exists i | 0 <= i < |list| :: Kept(list[i]) && list[i].stage == k
    ensures forall i | 0 <= i < |list| && Kept(list[i]) :: list[i].stage in m
    decreases |list|
  {
    if list == [] then map[]
    else
      var prefix := list[..|list| - 1];
      var e := list[|list| - 1];
      var m := RestoreFrom(prefix);
      assert forall i | 0 <= i < |prefix| :: prefix[i] == list[i];
      if Kept(e) then m[e.stage := e.count] else m
  }

  /** A missing list restores to no purchases at all. */
  function RestoreShopPurchases(list: Option<seq<ShopPurchaseSave>>): (m: map<int, int>)
    ensures ValidCounts(m)
    ensures list.None? ==> m == map[]
  {
    match list
    case None => map[]
    case Some(l) => RestoreFrom(l)
  }

  /** Record `i` is kept and no later record is kept for the same stage. */
  ghost predicate LastKeptFor(list: seq<ShopPurchaseSave>, i: int)
    requires 0 <= i < |list|
  {
    && Kept(list[i])
    && forall j | i < j < |list| :: !(Kept(list[j]) && list[j].stage == list[i].stage)
  }

  /** A later record for a stage overwrites an earlier one: each stage comes
      back with the count of the last kept record for it. */
  lemma {:induction false} RestoreLastRecordWins(list: seq<ShopPurchaseSave>)
    ensures forall i | 0 <= i < |list| && LastKeptFor(list, i) :: RestoreFrom(list)[list[i].stage] == list[i].count
    decreases |list|
  {
    if list != [] {
      var prefix := list[..|list| - 1];
      assert forall i | 0 <= i < |prefix| :: prefix[i] == list[i];
      RestoreLastRecordWins(prefix);
      forall i | 0 <= i < |prefix| && LastKeptFor(list, i)
        ensures LastKeptFor(prefix, i)
      {
      }
    }
  }

  /** With no stage listed twice, every kept record comes back with its own count. */
  lemma {:induction false} RestoreDistinct(list: seq<ShopPurchaseSave>)
    requires forall i, j | 0 <= i < j < |list| :: list[i].stage != list[j].stage
    ensures forall i | 0 <= i < |list| && Kept(list[i]) :: RestoreFrom(list)[list[i].stage] == list[i].count
    decreases |list|
  {
    if list != [] {
      var prefix := list[..|list| - 1];
      assert forall i | 0 <= i < |prefix| :: prefix[i] == list[i];
      RestoreDistinct(prefix);
    }
  }

  /** Restoring a list that holds each entry of well-formed counts exactly
      once gives back those counts. */
  lemma RestoreOfListing(list: seq<ShopPurchaseSave>, kept: map<int, int>)
    requires ValidCounts(kept)
    requires ListsExactly(list, kept)
    ensures RestoreFrom(list) == kept
  {
    var m := RestoreFrom(list);
    RestoreDistinct(list);
    forall k | k in kept
      ensures k in m && m[k] == kept[k]
    {
      var i :| 0 <= i < |list| && list[i].stage == k;
      assert Kept(list[i]);
    }
    forall k | k in m
      ensures k in kept
    {
      var i :| 0 <= i < |list| && Kept(list[i]) && list[i].stage == k;
    }
    assert m.Keys == kept.Keys;
  }

  /** Restoring what was collected gives back exactly the kept entries. */
  lemma RestoreOfCollected(list: seq<ShopPurchaseSave>, counts: map<int, int>)
    requires ListsExactly(list, Filter(counts))
    ensures RestoreFrom(list) == Filter(counts)
  {
    RestoreOfListing(list, Filter(counts));
  }

  /** A well-formed count map survives a save and a load unchanged. */
  lemma CollectThenRestoreIsIdentity(list: seq<ShopPurchaseSave>, counts: map<int, int>)
    requires ValidCounts(counts)
    requires ListsExactly(list, Filter(counts))
    ensures RestoreShopPurchases(Some(list)) == counts
  {
    RestoreOfCollected(list, counts);
    FilterKeepsValidCounts(counts);
  }
}

=== FILE: upgrades.dfy ===
/** The upgrade panel (Assets/Scripts/CanvasMejorasController.cs): three
    upgrades bought with coins, each with its own price that grows
    geometrically.
    - Auto-click: each purchase adds a fixed amount to the global auto-click
      reduction, up to a cap on purchases.
    - Auto-spawn: the first purchase turns automatic spawning on; later ones
      shorten its interval, down to one second.
    - Coin multiplier: each purchase raises the global coin multiplier by a
      step that shrinks with every purchase, up to a cap on purchases.
    Also modelled: the price labels ("MAX" or the price) and the save record
    of the panel, with the clamps applied when it is loaded. */
module Upgrades {
  import opened Numeric
  import GM = GameManager
  import Clickable

  /** Inspector settings of the panel. */
  datatype UpgradeConfig = UpgradeConfig(
    autoClickInitialPrice: int,
    autoClickPriceMultiplier: real,
    autoClickMaxPurchases: int,
    autoClickReductionPerPurchase: real,
    autoSpawnInitialPrice: int,
    autoSpawnPriceMultiplier: real,
    autoSpawnInitialInterval: real,
    autoSpawnReductionPerPurchase: real,
    coinMultiplierInitialPrice: int,
    coinMultiplierPriceMultiplier: real,
    coinMultiplierIncreasePerPurchase: real,
    coinMultiplierMaxPurchases: int)

  const Defaults: UpgradeConfig := UpgradeConfig(100, 2.0, 10, 1.0, 10000, 2.0, 10.0, 1.0, 100, 2.0, 0.2, 25)

  /** The shrink factor of the coin-multiplier step: the n-th purchase (from 0)
      adds `increase / (1 + 0.2 n)`. */
  const CoinStepDecay: real := 0.2

  /** The panel's mutable counters and current prices. */
  datatype UpgradeState = UpgradeState(
    autoClickPurchases: int,
    autoClickCurrentPrice: int,
    autoSpawnCurrentPrice: int,
    coinMultiplierCurrentPrice: int,
    coinMultiplierPurchases: int)

  /** The saved form of the panel, field for field. */
  datatype UpgradeSaveData = UpgradeSaveData(
    autoClickPurchases: int,
    autoClickCurrentPrice: int,
    autoSpawnCurrentPrice: int,
    coinMultiplierCurrentPrice: int,
    coinMultiplierPurchases: int)

  /** The outcome of a buy button: whether coins were spent, and both states after it. */
  datatype Purchase = Purchase(bought: bool, upgrades: UpgradeState, game: GM.GameState)

  /** Scales a price by `multiplier` (treated as at least 1), rounds up, and
      keeps the result at least 1. */
  function MultiplyPrice(currentPrice: int, multiplier: real): (r: int)
    ensures r >= 1
    ensures currentPrice >= 1 ==> r >= currentPrice
    ensures currentPrice >= 1 && multiplier > 1.0 ==> r > currentPrice
    ensures multiplier <= 1.0 ==> r == Max(1, currentPrice)
    ensures r as real >= currentPrice as real * MaxReal(1.0, multiplier)
    ensures currentPrice >= 1 ==> (r as real) < currentPrice as real * MaxReal(1.0, multiplier) + 1.0
  {
    var safeMultiplier := MaxReal(1.0, multiplier);
    Max(1, CeilToInt(currentPrice as real * safeMultiplier))
  }

  /** With a whole multiplier the next price is the exact product. */
  lemma MultiplyPriceByWhole(currentPrice: int, k: int)
    requires currentPrice >= 1 && k >= 1
    ensures MultiplyPrice(currentPrice, k as real) == currentPrice * k
  {
    var x := currentPrice as real * k as real;
    assert x == (currentPrice * k) as real;
    assert CeilToInt(x) == currentPrice * k;
  }

  /** The panel at start-up: no purchases, each price its initial price (at least 1). */
  function InitializeUpgradeState(cfg: UpgradeConfig): (u: UpgradeState)
    ensures u.autoClickPurchases == 0 && u.coinMultiplierPurchases == 0
    ensures u.autoClickCurrentPrice >= 1 && u.autoSpawnCurrentPrice >= 1 && u.coinMultiplierCurrentPrice >= 1
    ensures cfg.autoClickInitialPrice >= 1 ==> u.autoClickCurrentPrice == cfg.autoClickInitialPrice
    ensures cfg.autoSpawnInitialPrice >= 1 ==> u.autoSpawnCurrentPrice == cfg.autoSpawnInitialPrice
    ensures cfg.coinMultiplierInitialPrice >= 1 ==> u.coinMultiplierCurrentPrice == cfg.coinMultiplierInitialPrice
    ensures cfg.autoClickInitialPrice < 1 ==> u.autoClickCurrentPrice == 1
    ensures cfg.autoSpawnInitialPrice < 1 ==> u.autoSpawnCurrentPrice == 1
    ensures cfg.coinMultiplierInitialPrice < 1 ==> u.coinMultiplierCurrentPrice == 1
  {
    UpgradeState(0, Max(1, cfg.autoClickInitialPrice), Max(1, cfg.autoSpawnInitialPrice), Max(1, cfg.coinMultiplierInitialPrice), 0)
  }

  /** The panel's counters lie in the ranges its code keeps them in. */
  ghost predicate InRange(cfg: UpgradeConfig, u: UpgradeState)
  {
    && 0 <= u.autoClickPurchases <= cfg.autoClickMaxPurchases
    && u.autoClickCurrentPrice >= 1
    && u.autoSpawnCurrentPrice >= 1
    && u.coinMultiplierCurrentPrice >= 1
    && u.coinMultiplierPurchases >= 0
    && (cfg.coinMultiplierMaxPurchases > 0 ==> u.coinMultiplierPurchases <= cfg.coinMultiplierMaxPurchases)
  }

  lemma InitialInRange(cfg: UpgradeConfig)
    requires cfg.autoClickMaxPurchases >= 0
    ensures InRange(cfg, InitializeUpgradeState(cfg))
  {
  }

  // ---------------------------------------------------------------------------
  // Auto-click

  predicate AutoClickMaxed(cfg: UpgradeConfig, u: UpgradeState)
  {
    u.autoClickPurchases >= cfg.autoClickMaxPurchases
  }

  /** Buys one auto-click upgrade. The cap is checked first, then that a
      manager exists, then the coins. A purchase adds the per-purchase
      reduction to the global reduction; the price grows unless the cap has
      now been reached. */
  function BuyAutoClickUpgrade(cfg: UpgradeConfig, hasManager: bool, u: UpgradeState, g: GM.GameState): (r: Purchase)
    ensures r.bought <==> !AutoClickMaxed(cfg, u) && hasManager && GM.TrySpendMoney(g, u.autoClickCurrentPrice as real).ok
    ensures !r.bought ==> r.upgrades == u && r.game == g
    ensures r.bought ==>
      && r.upgrades.autoClickPurchases == u.autoClickPurchases + 1
      && r.game.autoClickReduction == g.autoClickReduction + cfg.autoClickReductionPerPurchase
      && (u.autoClickCurrentPrice >= 1 ==> r.game.money == g.money - u.autoClickCurrentPrice as real)
      && r.game.(money := g.money, autoClickReduction := g.autoClickReduction) == g
      && (!AutoClickMaxed(cfg, r.upgrades) ==>
            r.upgrades.autoClickCurrentPrice == MultiplyPrice(u.autoClickCurrentPrice, cfg.autoClickPriceMultiplier))
      && (AutoClickMaxed(cfg, r.upgrades) ==> r.upgrades.autoClickCurrentPrice == u.autoClickCurrentPrice)
      && r.upgrades.(autoClickPurchases := u.autoClickPurchases, autoClickCurrentPrice := u.autoClickCurrentPrice) == u
    ensures InRange(cfg, u) ==> InRange(cfg, r.upgrades)
  {
    if u.autoClickPurchases >= cfg.autoClickMaxPurchases then Purchase(false, u, g)
    else if !hasManager then Purchase(false, u, g)
    else
      var spend := GM.TrySpendMoney(g, u.autoClickCurrentPrice as real);
      if !spend.ok then Purchase(false, u, g)
      else
        var purchases := u.autoClickPurchases + 1;
        var game := Clickable.ApplyGlobalAutoClickUpgrade(spend.state, cfg.autoClickReductionPerPurchase);
        var price :=
          if purchases < cfg.autoClickMaxPurchases
          then MultiplyPrice(u.autoClickCurrentPrice, cfg.autoClickPriceMultiplier)
          else u.autoClickCurrentPrice;
        Purchase(true, u.(autoClickPurchases := purchases, autoClickCurrentPrice := price), game)
  }

  /** Presses the auto-click button `n` times in a row, each press seeing the
      states the previous one left. */
  function PressAutoClick(cfg: UpgradeConfig, hasManager: bool, u: UpgradeState, g: GM.GameState, n: nat): (r: Purchase)
    decreases n
  {
    if n == 0 then Purchase(false, u, g)
    else
      var first := BuyAutoClickUpgrade(cfg, hasManager, u, g);
      var rest := PressAutoClick(cfg, hasManager, first.upgrades, first.game, n - 1);
      Purchase(first.bought || rest.bought, rest.upgrades, rest.game)
  }

  /** However often the button is pressed, the panel stays in range, so the
      purchases never pass the cap. */
  lemma {:induction false} PressAutoClickStaysInRange(cfg: UpgradeConfig, hasManager: bool, u: UpgradeState, g: GM.GameState, n: nat)
    requires InRange(cfg, u)
    ensures InRange(cfg, PressAutoClick(cfg, hasManager, u, g, n).upgrades)
    ensures PressAutoClick(cfg, hasManager, u, g, n).upgrades.autoClickPurchases <= cfg.autoClickMaxPurchases
    decreases n
  {
    if n > 0 {
      var first := BuyAutoClickUpgrade(cfg, hasManager, u, g);
      PressAutoClickStaysInRange(cfg, hasManager, first.upgrades, first.game, n - 1);
    }
  }

  /** `k` reduction steps of size `step`, added one at a time. */
  function Steps(k: nat, step: real): real
  {
    if k == 0 then 0.0 else step + Steps(k - 1, step)
  }

  /** Adding `k` steps one at a time adds `k` times the step. */
  lemma {:induction false} StepsIsProduct(k: nat, step: real)
    ensures Steps(k, step) == k as real * step
  {
    if k > 0 {
      StepsIsProduct(k - 1, step);
    }
  }

  /** However often the button is pressed, the global reduction grows by
      exactly one step per purchase made. */
  lemma {:induction false} AutoClickReductionTracksPurchases(cfg: UpgradeConfig, hasManager: bool, u: UpgradeState, g: GM.GameState, n: nat)
    ensures var r := PressAutoClick(cfg, hasManager, u, g, n);
      && r.upgrades.autoClickPurchases >= u.autoClickPurchases
      && r.game.autoClickReduction
         == g.autoClickReduction + Steps(r.upgrades.autoClickPurchases - u.autoClickPurchases, cfg.autoClickReductionPerPurchase)
    decreases n
  {
    if n > 0 {
      var first := BuyAutoClickUpgrade(cfg, hasManager, u, g);
      var rest := PressAutoClick(cfg, hasManager, first.upgrades, first.game, n - 1);
      assert PressAutoClick(cfg, hasManager, u, g, n) == Purchase(first.bought || rest.bought, rest.upgrades, rest.game);
      AutoClickReductionTracksPurchases(cfg, hasManager, first.upgrades, first.game, n - 1);
    }
  }

  // ---------------------------------------------------------------------------
  // Auto-spawn

  /** Auto-spawn is at its best: enabled with an interval of one second or less. */
  predicate AutoSpawnMaxed(g: GM.GameState)
  {
    g.autoSpawnEnabled && g.spawnInterval <= 1.0
  }

  /** Buys one auto-spawn upgrade. Without a manager or at the best interval
      nothing happens; otherwise, once paid for, the first purchase enables
      auto-spawn at the initial interval and later ones shorten the interval.
      The price grows only while the interval is still above one second. */
  function BuyAutoSpawnUpgrade(cfg: UpgradeConfig, hasManager: bool, u: UpgradeState, g: GM.GameState): (r: Purchase)
    ensures r.bought <==> hasManager && !AutoSpawnMaxed(g) && GM.TrySpendMoney(g, u.autoSpawnCurrentPrice as real).ok
    ensures !r.bought ==> r.upgrades == u && r.game == g
    ensures r.bought ==> r.game.autoSpawnEnabled && r.game.spawnInterval >= 1.0
    ensures r.bought && !g.autoSpawnEnabled ==> r.game.spawnInterval == MaxReal(1.0, cfg.autoSpawnInitialInterval)
    ensures r.bought && g.autoSpawnEnabled && cfg.autoSpawnReductionPerPurchase > 0.0 ==>
      r.game.spawnInterval < g.spawnInterval && r.game.spawnInterval >= 1.0
    ensures r.bought && g.autoSpawnEnabled ==>
      r.game.spawnInterval == GM.ReduceSpawnInterval(g, cfg.autoSpawnReductionPerPurchase).spawnInterval
    ensures r.bought && u.autoSpawnCurrentPrice >= 1 ==> r.game.money == g.money - u.autoSpawnCurrentPrice as real
    ensures r.bought ==> r.game.(money := g.money, autoSpawnEnabled := g.autoSpawnEnabled, spawnInterval := g.spawnInterval) == g
    ensures r.bought && r.game.spawnInterval > 1.0 ==>
      r.upgrades == u.(autoSpawnCurrentPrice := MultiplyPrice(u.autoSpawnCurrentPrice, cfg.autoSpawnPriceMultiplier))
    ensures r.bought && r.game.spawnInterval <= 1.0 ==> r.upgrades == u
    ensures InRange(cfg, u) ==> InRange(cfg, r.upgrades)
  {
    if !hasManager then Purchase(false, u, g)
    else if g.autoSpawnEnabled && g.spawnInterval <= 1.0 then Purchase(false, u, g)
    else
      var spend := GM.TrySpendMoney(g, u.autoSpawnCurrentPrice as real);
      if !spend.ok then Purchase(false, u, g)
      else
        var game :=
          if !spend.state.autoSpawnEnabled
          then GM.EnableAutoSpawn(spend.state, cfg.autoSpawnInitialInterval)
          else GM.ReduceSpawnInterval(spend.state, cfg.autoSpawnReductionPerPurchase);
        var price :=
          if game.spawnInterval > 1.0
          then MultiplyPrice(u.autoSpawnCurrentPrice, cfg.autoSpawnPriceMultiplier)
          else u.autoSpawnCurrentPrice;
        Purchase(true, u.(autoSpawnCurrentPrice := price), game)
  }

  // ---------------------------------------------------------------------------
  // Coin multiplier

  predicate CoinMultiplierMaxed(cfg: UpgradeConfig, u: UpgradeState)
  {
    cfg.coinMultiplierMaxPurchases > 0 && u.coinMultiplierPurchases >= cfg.coinMultiplierMaxPurchases
  }

  /** The step added by a purchase after `purchases` earlier ones. */
  function ScaledIncrease(cfg: UpgradeConfig, purchases: int): (r: real)
    requires purchases >= 0
    ensures purchases == 0 ==> r == cfg.coinMultiplierIncreasePerPurchase
    ensures cfg.coinMultiplierIncreasePerPurchase > 0.0 ==> 0.0 < r <= cfg.coinMultiplierIncreasePerPurchase
    ensures r * (1.0 + purchases as real * CoinStepDecay) == cfg.coinMultiplierIncreasePerPurchase
  {
    cfg.coinMultiplierIncreasePerPurchase / (1.0 + purchases as real * CoinStepDecay)
  }

  /** Each later purchase adds strictly less than an earlier one. */
  lemma ScaledIncreaseDecreasing(cfg: UpgradeConfig, n: int, m: int)
    requires 0 <= n < m && cfg.coinMultiplierIncreasePerPurchase > 0.0
    ensures ScaledIncrease(cfg, m) < ScaledIncrease(cfg, n)
  {
    var inc := cfg.coinMultiplierIncreasePerPurchase;
    var dn := 1.0 + n as real * CoinStepDecay;
    var dm := 1.0 + m as real * CoinStepDecay;
    assert 0.0 < dn < dm;
    assert ScaledIncrease(cfg, m) * dm == inc;
    assert ScaledIncrease(cfg, n) * dn == inc;
    assert ScaledIncrease(cfg, m) * dm == ScaledIncrease(cfg, n) * dn;
  }

  /** Buys one coin-multiplier upgrade. Without a manager or at the cap nothing
      happens; once paid for, the global multiplier rises by the shrinking
      step and the price grows unless the cap has now been reached. A cap of
      0 or less means no cap. */
  function BuyCoinMultiplierUpgrade(cfg: UpgradeConfig, hasManager: bool, u: UpgradeState, g: GM.GameState): (r: Purchase)
    requires u.coinMultiplierPurchases >= 0
    ensures r.bought <==> hasManager && !CoinMultiplierMaxed(cfg, u) && GM.TrySpendMoney(g, u.coinMultiplierCurrentPrice as real).ok
    ensures !r.bought ==> r.upgrades == u && r.game == g
    ensures r.bought ==>
      && r.upgrades.coinMultiplierPurchases == u.coinMultiplierPurchases + 1
      && r.game.moneyMultiplier == g.moneyMultiplier + ScaledIncrease(cfg, u.coinMultiplierPurchases)
      && (u.coinMultiplierCurrentPrice >= 1 ==> r.game.money == g.money - u.coinMultiplierCurrentPrice as real)
      && r.game.(money := g.money, moneyMultiplier := g.moneyMultiplier) == g
      && (!CoinMultiplierMaxed(cfg, r.upgrades) ==>
            r.upgrades.coinMultiplierCurrentPrice == MultiplyPrice(u.coinMultiplierCurrentPrice, cfg.coinMultiplierPriceMultiplier))
      && (CoinMultiplierMaxed(cfg, r.upgrades) ==> r.upgrades.coinMultiplierCurrentPrice == u.coinMultiplierCurrentPrice)
      && r.upgrades.(coinMultiplierPurchases := u.coinMultiplierPurchases, coinMultiplierCurrentPrice := u.coinMultiplierCurrentPrice) == u
    ensures InRange(cfg, u) ==> InRange(cfg, r.upgrades)
  {
    if !hasManager then Purchase(false, u, g)
    else if cfg.coinMultiplierMaxPurchases > 0 && u.coinMultiplierPurchases >= cfg.coinMultiplierMaxPurchases then Purchase(false, u, g)
    else
      var spend := GM.TrySpendMoney(g, u.coinMultiplierCurrentPrice as real);
      if !spend.ok then Purchase(false, u, g)
      else
        var scaledIncrease := ScaledIncrease(cfg, u.coinMultiplierPurchases);
        var game := Clickable.IncreaseGlobalMoneyMultiplier(spend.state, scaledIncrease);
        var purchases := u.coinMultiplierPurchases + 1;
        var price :=
          if cfg.coinMultiplierMaxPurchases <= 0 || purchases < cfg.coinMultiplierMaxPurchases
          then MultiplyPrice(u.coinMultiplierCurrentPrice, cfg.coinMultiplierPriceMultiplier)
          else u.coinMultiplierCurrentPrice;
        Purchase(true, u.(coinMultiplierPurchases := purchases, coinMultiplierCurrentPrice := price), game)
  }

  // ---------------------------------------------------------------------------
  // Price labels

  datatype PriceDisplay = MaxLabel | PriceLabel(price: int)

  function AutoClickDisplay(cfg: UpgradeConfig, u: UpgradeState): (d: PriceDisplay)
    ensures d.MaxLabel? <==> AutoClickMaxed(cfg, u)
    ensures d.PriceLabel? ==> d.price == u.autoClickCurrentPrice
  {
    if u.autoClickPurchases >= cfg.autoClickMaxPurchases then MaxLabel else PriceLabel(u.autoClickCurrentPrice)
  }

  /** Without a manager the auto-spawn label shows the price. */
  function AutoSpawnDisplay(hasManager: bool, u: UpgradeState, g: GM.GameState): (d: PriceDisplay)
    ensures d.MaxLabel? <==> hasManager && AutoSpawnMaxed(g)
    ensures d.PriceLabel? ==> d.price == u.autoSpawnCurrentPrice
  {
    if hasManager && g.autoSpawnEnabled && g.spawnInterval <= 1.0 then MaxLabel else PriceLabel(u.autoSpawnCurrentPrice)
  }

  function CoinMultiplierDisplay(cfg: UpgradeConfig, u: UpgradeState): (d: PriceDisplay)
    ensures d.MaxLabel? <==> CoinMultiplierMaxed(cfg, u)
    ensures d.PriceLabel? ==> d.price == u.coinMultiplierCurrentPrice
  {
    if cfg.coinMultiplierMaxPurchases > 0 && u.coinMultiplierPurchases >= cfg.coinMultiplierMaxPurchases
    then MaxLabel else PriceLabel(u.coinMultiplierCurrentPrice)
  }

  /** "MAX" means the button does nothing; a shown price is what a purchase
      costs, and a manager with at least that many coins always completes it. */
  lemma AutoClickLabelMatchesBuy(cfg: UpgradeConfig, hasManager: bool, u: UpgradeState, g: GM.GameState)
    requires InRange(cfg, u)
    ensures AutoClickDisplay(cfg, u).MaxLabel? ==> !BuyAutoClickUpgrade(cfg, hasManager, u, g).bought
    ensures AutoClickDisplay(cfg, u).PriceLabel? && hasManager && g.money >= AutoClickDisplay(cfg, u).price as real ==>
      && BuyAutoClickUpgrade(cfg, hasManager, u, g).bought
      && BuyAutoClickUpgrade(cfg, hasManager, u, g).game.money == g.money - AutoClickDisplay(cfg, u).price as real
  {
  }

  lemma AutoSpawnLabelMatchesBuy(cfg: UpgradeConfig, hasManager: bool, u: UpgradeState, g: GM.GameState)
    requires InRange(cfg, u)
    ensures AutoSpawnDisplay(hasManager, u, g).MaxLabel? ==> !BuyAutoSpawnUpgrade(cfg, hasManager, u, g).bought
    ensures AutoSpawnDisplay(hasManager, u, g).PriceLabel? && hasManager && g.money >= AutoSpawnDisplay(hasManager, u, g).price as real ==>
      && BuyAutoSpawnUpgrade(cfg, hasManager, u, g).bought
      && BuyAutoSpawnUpgrade(cfg, hasManager, u, g).game.money == g.money - AutoSpawnDisplay(hasManager, u, g).price as real
  {
  }

  lemma CoinMultiplierLabelMatchesBuy(cfg: UpgradeConfig, hasManager: bool, u: UpgradeState, g: GM.GameState)
    requires InRange(cfg, u)
    ensures CoinMultiplierDisplay(cfg, u).MaxLabel? ==> !BuyCoinMultiplierUpgrade(cfg, hasManager, u, g).bought
    ensures CoinMultiplierDisplay(cfg, u).PriceLabel? && hasManager && g.money >= CoinMultiplierDisplay(cfg, u).price as real ==>
      && BuyCoinMultiplierUpgrade(cfg, hasManager, u, g).bought
      && BuyCoinMultiplierUpgrade(cfg, hasManager, u, g).game.money == g.money - CoinMultiplierDisplay(cfg, u).price as real
  {
  }

  // ---------------------------------------------------------------------------
  // Save data

  function GetUpgradeSaveData(u: UpgradeState): (d: UpgradeSaveData)
    ensures d.autoClickPurchases == u.autoClickPurchases && d.autoClickCurrentPrice == u.autoClickCurrentPrice
    ensures d.autoSpawnCurrentPrice == u.autoSpawnCurrentPrice
    ensures d.coinMultiplierCurrentPrice == u.coinMultiplierCurrentPrice && d.coinMultiplierPurchases == u.coinMultiplierPurchases
  {
    UpgradeSaveData(u.autoClickPurchases, u.autoClickCurrentPrice, u.autoSpawnCurrentPrice,
                    u.coinMultiplierCurrentPrice, u.coinMultiplierPurchases)
  }

  /** Loads a saved panel, pulling every field back into range: purchase
      counts into [0, cap] (the coin cap only when positive), prices to at
      least 1. */
  function ApplyUpgradeSaveData(cfg: UpgradeConfig, d: UpgradeSaveData): (u: UpgradeState)
    ensures cfg.autoClickMaxPurchases >= 0 ==> InRange(cfg, u)
    ensures 0 <= d.autoClickPurchases <= cfg.autoClickMaxPurchases ==> u.autoClickPurchases == d.autoClickPurchases
    ensures d.autoClickPurchases < 0 ==> u.autoClickPurchases == 0
    ensures 0 <= d.autoClickPurchases && cfg.autoClickMaxPurchases < d.autoClickPurchases ==>
      u.autoClickPurchases == cfg.autoClickMaxPurchases
    ensures d.autoClickCurrentPrice >= 1 ==> u.autoClickCurrentPrice == d.autoClickCurrentPrice
    ensures d.autoClickCurrentPrice < 1 ==> u.autoClickCurrentPrice == 1
    ensures d.autoSpawnCurrentPrice >= 1 ==> u.autoSpawnCurrentPrice == d.autoSpawnCurrentPrice
    ensures d.autoSpawnCurrentPrice < 1 ==> u.autoSpawnCurrentPrice == 1
    ensures d.coinMultiplierCurrentPrice >= 1 ==> u.coinMultiplierCurrentPrice == d.coinMultiplierCurrentPrice
    ensures d.coinMultiplierCurrentPrice < 1 ==> u.coinMultiplierCurrentPrice == 1
    ensures u.coinMultiplierPurchases >= 0
    ensures d.coinMultiplierPurchases < 0 ==> u.coinMultiplierPurchases == 0
    ensures (d.coinMultiplierPurchases >= 0
             && (cfg.coinMultiplierMaxPurchases <= 0 || d.coinMultiplierPurchases <= cfg.coinMultiplierMaxPurchases)) ==>
      u.coinMultiplierPurchases == d.coinMultiplierPurchases
    ensures 0 < cfg.coinMultiplierMaxPurchases < d.coinMultiplierPurchases ==>
      u.coinMultiplierPurchases == cfg.coinMultiplierMaxPurchases
  {
    var autoClickPurchases := Clamp(d.autoClickPurchases, 0, cfg.autoClickMaxPurchases);
    var coinPurchases := Max(0, d.coinMultiplierPurchases);
    var coinPurchases' :=
      if cfg.coinMultiplierMaxPurchases > 0 then Min(coinPurchases, cfg.coinMultiplierMaxPurchases) else coinPurchases;
    UpgradeState(autoClickPurchases, Max(1, d.autoClickCurrentPrice), Max(1, d.autoSpawnCurrentPrice),
                 Max(1, d.coinMultiplierCurrentPrice), coinPurchases')
  }

  /** Saving a panel whose counters are in range and loading it back gives the
      same panel. */
  lemma SaveThenApplyIsIdentity(cfg: UpgradeConfig, u: UpgradeState)
    requires InRange(cfg, u)
    ensures ApplyUpgradeSaveData(cfg, GetUpgradeSaveData(u)) == u
  {
  }

  /** Loading is idempotent: a loaded panel saves to a record that loads back
      to the same panel. */
  lemma ApplyThenSaveIsStable(cfg: UpgradeConfig, d: UpgradeSaveData)
    requires cfg.autoClickMaxPurchases >= 0
    ensures var u := ApplyUpgradeSaveData(cfg, d);
      ApplyUpgradeSaveData(cfg, GetUpgradeSaveData(u)) == u
  {
    SaveThenApplyIsIdentity(cfg, ApplyUpgradeSaveData(cfg, d));
  }

  /** With the defaults, the first auto-click purchase costs 100 coins and the
      second 200. */
  lemma DefaultAutoClickPrices(g: GM.GameState)
    requires g.money >= 100.0
    ensures var r := BuyAutoClickUpgrade(Defaults, true, InitializeUpgradeState(Defaults), g);
      && r.bought
      && r.game.money == g.money - 100.0
      && r.upgrades.autoClickCurrentPrice == 200
  {
    MultiplyPriceByWhole(100, 2);
  }
}

=== FILE: wrappers.dfy ===
/** The optional-value datatype used wherever the game code holds a reference
    that may be null or looks up a key that may be absent. */
module Wrappers {

  datatype Option<+T> = None | Some(value: T) {

    /** The carried value, or `default` when there is none. */
    function GetOr(default: T): T
    {
      match this
      case Some(v) => v
      case None => default
    }
  }
}
